=== FILE: README.md ===
# Equal-weighted index engine: a Dafny model

This project models the index-construction engine of the `market_env`
package and the store it runs on, and proves properties of the model.

- **Constituent selection and weighting** (`construct_equal_weighted_index`).
  The day's prices are joined to the ticker details. Rows without a market
  cap are dropped. The rest are ordered by market cap, largest first, and
  the first `top_n` are kept. Each kept row gets the weight 1/N.
- **Index level and return series** (`track_index_performance`). For each
  day of the range that has a joined row, the level is Σ weight × close
  over the composition tuples of that day. The daily return is the
  percentage change from the previous row of the series, and 0 for the
  first row.
- **Composition-change detection** (`detect_index_changes`). Each day of
  the composition log has a symbol list. A day in the range is reported
  when it has no earlier day in the whole log, or when its symbol list
  differs from the nearest earlier day's.
- **The store** (`StockDataManager`), as an abstract state:
  - the price table is an upsert keyed by (ticker, timestamp);
  - the ticker details are an upsert keyed by ticker;
  - the composition, performance and change tables are append-only logs;
  - a batch write either commits or rolls back and leaves the state as it
    was;
  - `execute_query` answers a store error with an empty frame.

Modules, one file each:

- `Common` (`common.dfy`): options, the Python exceptions that escape,
  calendar days, distinct values and sorting helpers.
- `Store` (`store.dfy`): tables, state and the write operations.
- `Selection` (`selection.dfy`), `Performance` (`performance.dfy`) and
  `Changes` (`changes.dfy`): the three computations.

Modelling choices:

- **Days** are integers counting days since 1970-01-01 UTC. From year 1000
  on they order as the `YYYY-MM-DD` strings the source compares with `<`,
  `BETWEEN` and `ORDER BY`. A bar's stored day is the UTC day of its epoch milliseconds.
- **Prices and weights** are `real`, so 1/N and the return formula are
  exact.
- **The price table** is a sequence in table order. `INSERT OR REPLACE`
  deletes the row with the same key and adds the new row at the end.
  `PriceView` reads the table as a map.
- **Join order.** The join enumerates price rows in table order. Equal
  market caps keep that order, which fixes the tie-break SQLite leaves
  open.
- **Composition deduplication.** Both composition queries group by every
  value column (date, ticker, close_price, weight, market_cap). They
  therefore see the *distinct value tuples* of the log (`Common.Distinct`).
  An identical re-run collapses into one tuple. Versions that differ in
  any value for the same (date, ticker) all count.
- **Symbol lists** are multisets of tickers. `GROUP_CONCAT` has no defined
  order, and it repeats a ticker that has several versions on one day.
- **`pct_change() * 100` followed by `fillna(0)`** gives a finite change
  after a nonzero level. After a zero level it gives an infinity (`PosInf`
  or `NegInf`), except that 0 → 0 gives NaN, which becomes 0. No
  precondition excludes a zero level.
- **Store errors** are inputs: `Faults` says which step meets one.
- **The price fetch** before the selection query is an input
  (`FetchOutcome`):
  - `Fetched(batch)`: a payload was fetched and is upserted;
  - `NothingFetched`: an empty result, so nothing is upserted;
  - `FetchRaised`: the fetch raised an exception (`FetchError`, whatever
    its type).
- **Python exceptions** are `Result.Raised` values:
  - a bar without a timestamp raises `TypeError`, and one whose timestamp
    falls outside years 1 to 9999 raises `ValueError` (the error
    kinds for timestamps far outside that range are under "Left out"); the first such bar
    of a batch decides, and the builder catches
    it and returns an empty result;
  - a nested `address` or `branding` that is not an object raises
    `AttributeError`;
  - a store error on the change query leaves a frame without columns, and
    selecting columns from it raises `KeyError`.
- **The first day is reported.** `detect_index_changes` reports the first
  day of the log in the range as an initialization, with `prev_symbols`
  NULL (`Changes.FirstDayReported`). A two-day log with one change
  therefore yields two rows over both days (`Changes.TwoDayScenario`).

## Model

| member | source | states |
|---|---|---|
| Common.UtcDay | market_env/src/save_db.py:208-209 | the stored day is the UTC calendar day whose 86 400 000 ms span contains the bar's timestamp |
| Common.UtcDayUnique | market_env/src/save_db.py:209 | that day is the only one whose span contains the timestamp |
| Common.Distinct | market_env/src/index_construction.py:102-105 | grouping by every value column yields each distinct tuple of the log exactly once, and every tuple of the log is represented |
| Common.DistinctAppend | market_env/src/index_construction.py:155-165 | re-inserting a tuple already in the log leaves the distinct tuples unchanged; a new tuple adds exactly itself |
| Common.DistinctOfNoDuplicates | market_env/src/index_construction.py:155-165 | a log without repeated tuples is its own set of distinct tuples |
| Common.SortedDistinct | market_env/src/index_construction.py:108-109 | `GROUP BY date ORDER BY date` yields each value once, in strictly increasing order |
| Common.SumConstant | market_env/src/index_construction.py:66-67 | N equal weights w sum to N × w |
| Store.PriceViewKeys | market_env/src/save_db.py:93 | a (ticker, timestamp) key is in the table's map view exactly when some row carries it |
| Store.PriceViewLastWins | market_env/src/save_db.py:93 | a key maps to the last row that carries it |
| Store.PriceViewOfUnique | market_env/src/save_db.py:93 | under the primary key every row is what the map view holds for its key |
| Store.Replace | market_env/src/save_db.py:227-232 | `INSERT OR REPLACE` of one row sets its key to the row, keeps every other key, and keeps the primary key unique |
| Store.UpsertAll | market_env/src/save_db.py:227-232 | upserting a batch yields the old map overridden by the batch's map, and keeps the primary key unique |
| Store.UpsertLastRowWins | market_env/src/save_db.py:227-232 | after an upsert each batch key holds the last batch row with that key; keys outside the batch keep their row or stay absent |
| Store.PriceRows | market_env/src/save_db.py:207-224 | one row per bar: same values, the bar's UTC day, otc false when missing, the batch-level adjusted flag; the batch raises exactly when some bar has no timestamp or one outside years 1 to 9999, with the first such bar's TypeError or ValueError |
| Store.YearTenThousandRaises | market_env/src/save_db.py:208-209 | the first millisecond of year 10000 raises ValueError, the one before it is stored on 9999-12-31 |
| Store.InsertStockPrices | market_env/src/save_db.py:204-239 | the batch is upserted on commit; an undated bar's exception escapes and, like a store error (rollback), leaves the state exactly as before; only the price table changes |
| Store.TickerRowOf | market_env/src/save_db.py:141-169 | the details row copies the payload; a missing address or branding becomes all-NULL fields; one present but not an object raises AttributeError |
| Store.InsertTickerDetails | market_env/src/save_db.py:173-195 | upsert keyed by ticker: the ticker gets the new row, every other ticker keeps its row, a rollback or exception changes nothing |
| Store.AppendComposition | market_env/src/save_db.py:283-294 | the composition log grows by exactly the batch, earlier rows untouched; a store error rolls back to the previous state |
| Store.AppendPerformance | market_env/src/save_db.py:304-315 | the performance log grows by exactly the batch, earlier rows untouched; a store error rolls back to the previous state |
| Store.AppendChanges | market_env/src/save_db.py:324-338 | the change log grows by exactly the batch, earlier rows untouched; a store error rolls back to the previous state |
| Store.QueryFaultAsWritten | market_env/src/save_db.py:98-107 | against the composition table as created, the composition queries always meet a store error |
| Store.InsertCompositionAsWritten | market_env/src/save_db.py:284-294 | as written, a non-empty composition batch is always rolled back and leaves the state unchanged |
| Store.InsertChangesAsWritten | market_env/src/save_db.py:326-338 | as written, a non-empty change batch is always rolled back and leaves the state unchanged |
| Store.CompositionWriteLost | market_env/src/save_db.py:284-288 | a one-row composition batch is lost as written but recorded by the intended append |
| Store.ChangeWriteLost | market_env/src/save_db.py:326-332 | a one-row change batch is lost as written but recorded by the intended append |
| Selection.Eligible | market_env/src/index_construction.py:36-41 | a candidate row is produced exactly when a stored price of the day exists for a ticker with a known market cap, carrying that cap and close |
| Selection.EligibleSnoc | market_env/src/index_construction.py:36-41 | the join of a table with one more price row is the join of the shorter table, followed by that row's candidate when the row is of the day and its ticker has a market cap |
| Selection.EligibleCount | market_env/src/index_construction.py:36-41 | each candidate occurs in the join once per price row that produces it, so two bars of one ticker on one day with one close give two rows and count twice in N |
| Selection.InsertByCap | market_env/src/index_construction.py:42 | inserting into a cap-ordered list keeps it ordered and adds exactly the one row |
| Selection.SortByCap | market_env/src/index_construction.py:42 | `ORDER BY market_cap DESC` is a permutation in non-increasing cap order |
| Selection.Limit | market_env/src/index_construction.py:43 | `LIMIT n` keeps a prefix of length min(n, rows), every row for a negative n |
| Selection.PrefixHoldsLargest | market_env/src/index_construction.py:42-43 | no row outside a prefix of a cap-ordered list has a larger cap than a row inside it |
| Selection.PrefixByCap | market_env/src/index_construction.py:42-43 | a prefix of a cap-ordered list is cap-ordered |
| Selection.LimitOfSorted | market_env/src/index_construction.py:42-43 | the first n rows of the ordered candidates are ordered, drawn from the candidates, min(n, rows) long, outrank every row left out, and are all of them when nothing is left out |
| Selection.SelectTop | market_env/src/index_construction.py:36-43 | the selection is cap-ordered, drawn from the candidates, as long as the limit allows, and no left-out candidate outranks a kept one |
| Selection.EligibleOutranked | market_env/src/index_construction.py:42-43 | an eligible row left out has a cap no larger than the smallest kept, and is left out only when the limit is reached |
| Selection.SelectedAreEligible | market_env/src/index_construction.py:36-41 | every selected row has a known market cap and a stored price on the day |
| Selection.EqualWeight | market_env/src/index_construction.py:65-71 | every row carries the selected values, the query date and weight 1/N, and the weights sum to 1 |
| Selection.WeightedSelection | market_env/src/index_construction.py:65-71 | weighting an ordered selection keeps its candidates and their cap order |
| Selection.FetchPrices | market_env/src/index_construction.py:46-56 | a fetched batch goes through the price upsert, whose resulting state is kept and whose exception ends the call; an empty fetch changes nothing; an exception from the fetch ends the call; only the price table can change |
| Selection.IndexRows | market_env/src/index_construction.py:35-71 | at most top_n rows, cap-ordered, of the query date, weight 1/N summing to 1; a non-empty result is the top selection and met no store error; with a working query and a nonzero limit it is empty exactly when nothing is eligible |
| Selection.ConstructEqualWeightedIndex | market_env/src/index_construction.py:46-76 | the ticker details, performance and change logs never change and the primary key stays unique; an exception from the fetch or its upsert returns nothing and leaves the state as it was; otherwise the price table is the one the fetch left; an empty result writes no composition row; otherwise the composition log grows by exactly the returned rows, or is unchanged after a rollback |
| Selection.ConstructedRowsWeighted | market_env/src/index_construction.py:59-76 | the returned rows are at most top_n, of the query date, cap-ordered, weighted 1/N and sum to 1 |
| Selection.ConstructedRowsSelected | market_env/src/index_construction.py:46-76 | a non-empty result is the top selection over the data stored after the fetch, from a query without store error |
| Selection.ConstructedEmptyIffNoneEligible | market_env/src/index_construction.py:46-63 | once the fetch and its upsert succeed, with a working query and a nonzero limit, the result is empty exactly when no price stored after the fetch, on the day, has a ticker with a market cap |
| Performance.IndexPrice | market_env/src/index_construction.py:98-106 | the level sums weight × close over the distinct tuples of the day and the price rows they meet, so a day on which no distinct tuple meets a price row (no group in the query) has level 0 |
| Performance.ContributionNoJoin | market_env/src/index_construction.py:100-106 | a tuple that meets no price row adds nothing to the sum |
| Performance.DayTotalNoJoin | market_env/src/index_construction.py:100-106 | a day on which no tuple meets a price row sums to 0 |
| Performance.JoinedDates | market_env/src/index_construction.py:98-106 | a day is listed exactly when some composition tuple of that day meets a price row of the same ticker and day |
| Performance.Between | market_env/src/index_construction.py:107 | `BETWEEN start AND end` keeps exactly the values inside the closed range |
| Performance.SeriesDates | market_env/src/index_construction.py:106-109 | the series days are strictly increasing and are exactly the joined days inside the range |
| Performance.PctChange | market_env/src/index_construction.py:118-121 | after a nonzero level the return is finite and recovers the next level; after a zero level it is 0, +inf or -inf as the next level is 0, positive or negative |
| Performance.PctChangeScaleFree | market_env/src/index_construction.py:118 | scaling both levels by a positive factor leaves the return unchanged |
| Performance.TenPercentExample | market_env/src/index_construction.py:118 | a constituent at 10 then 11 gives a 10% return at any positive weight |
| Performance.Returns | market_env/src/index_construction.py:118-121 | one return per level: 0 for the first, the change from the previous level for every other |
| Performance.CompoundInvertsReturns | market_env/src/index_construction.py:118-121 | with no zero level before the last, compounding the returns from the first level rebuilds the levels |
| Performance.Series | market_env/src/index_construction.py:97-121 | one row per day with that day's level, first return 0, every other return the change from the previous row |
| Performance.PerformanceSeries | market_env/src/index_construction.py:97-121 | days strictly increasing, inside the range, each with a joined tuple and its level over the distinct tuples, and the return recurrence; a query error gives no rows |
| Performance.SeriesCoversJoinedDays | market_env/src/index_construction.py:97-112 | every day of the range with a joined tuple has a row |
| Performance.TrackIndexPerformance | market_env/src/index_construction.py:78-135 | the returned series is the query's series for the range (increasing days inside [start, end], each with its index level and chained return, none after a query failure); an empty result writes nothing; otherwise the performance log grows by exactly the returned series, or the state is unchanged after a rollback, and no other table changes |
| Performance.TrackedCoversJoinedDays | market_env/src/index_construction.py:97-129 | with a working query, every day of the range with a joined tuple is in the returned series, whatever the write does |
| Performance.ChainCompounds | market_env/src/index_construction.py:118-121 | a series obeying the return recurrence is rebuilt from its first level and its returns |
| Performance.TrackedReturnsCompound | market_env/src/index_construction.py:118-129 | the tracked series is rebuilt from its first level and its returns |
| Performance.RepeatedTupleKeepsSeries | market_env/src/index_construction.py:102-105 | re-adding an identical composition tuple changes no level and no tracked series |
| Performance.NewVersionAddsContribution | market_env/src/index_construction.py:102-106 | a tuple differing in any value adds its own contribution to its day's level, even beside another version of the same (date, ticker) |
| Performance.TrackIndexPerformanceAsWritten | market_env/src/index_construction.py:103-105 | against the composition table as created, every call returns an empty series and writes nothing |
| Performance.MissingColumnHidesSeries | market_env/src/index_construction.py:103-105 | one tuple joined to one price is a one-row series with the column present and an empty one as written |
| Changes.Symbols | market_env/src/index_construction.py:166-171 | a ticker is in a day's symbols exactly when some distinct tuple of that day carries it |
| Changes.SymbolsCount | market_env/src/index_construction.py:155-171 | a day's symbol list holds each ticker once per distinct tuple of that day carrying it, counted against the positions of the log |
| Changes.OccurrencesSnoc | market_env/src/index_construction.py:155-171 | one more tuple adds its own position to the count exactly when it is of that day and ticker |
| Changes.Days | market_env/src/index_construction.py:166-171 | the days of the log, strictly increasing, exactly those with a tuple |
| Changes.PrevDate | market_env/src/index_construction.py:177-181 | NULL exactly when no day lies below d; otherwise the greatest day below d |
| Changes.Filter | market_env/src/index_construction.py:189-192 | keeps exactly the rows inside the range with no predecessor or differing symbols |
| Changes.FilterIncreasing | market_env/src/index_construction.py:189-192 | filtering keeps the rows in increasing day order |
| Changes.Records | market_env/src/index_construction.py:173-188 | one row per day of the log, in day order, pairing it with its predecessor and both symbol lists |
| Changes.ChangeRows | market_env/src/index_construction.py:153-192 | the reported rows are, in day order, exactly the days of the range with no predecessor or with differing symbols |
| Changes.DetectIndexChanges | market_env/src/index_construction.py:136-205 | a query error raises KeyError before any write; otherwise the rows are the reported rows of the distinct tuples, in increasing day order, appended to the change log on commit, with the state unchanged on rollback |
| Changes.PrevIsNearestEarlier | market_env/src/index_construction.py:177-186 | the predecessor is the nearest earlier day of the whole log, wherever the range starts |
| Changes.RowMeaning | market_env/src/index_construction.py:173-192 | every reported row names the nearest earlier day and its symbols, and is reported because there is none or because the symbols differ |
| Changes.FirstDayReported | market_env/src/index_construction.py:191 | a day of the range with no earlier day is always reported, with no predecessor |
| Changes.ChangedDayReported | market_env/src/index_construction.py:191 | a day of the range whose symbols differ from its nearest earlier day's is reported against that day |
| Changes.UnchangedDayNotReported | market_env/src/index_construction.py:191 | a day whose symbols equal its nearest earlier day's is never reported |
| Changes.RepeatedTupleKeepsChanges | market_env/src/index_construction.py:155-165 | re-adding an identical composition tuple changes no detected row |
| Changes.TwoDayScenario | market_env/src/index_construction.py:153-192 | AAA,BBB then AAA,CCC over both days gives two rows: day 1 without predecessor, day 2 against day 1 |
| Changes.RebuiltCounts | market_env/src/index_construction.py:166-171 | a day built twice with two versions of AAA lists AAA twice, the next day once |
| Changes.RebuiltTickers | market_env/src/index_construction.py:166-171 | both days of that log hold the same tickers |
| Changes.RebuiltDayReported | market_env/src/index_construction.py:166-192 | rebuilding a day with an extra version of a ticker makes the next day a reported change against it, although the ticker sets agree |
| Changes.DetectIndexChangesAsWritten | market_env/src/index_construction.py:155-164 | against the composition table as created, every call raises KeyError |
| Changes.MissingColumnRaises | market_env/src/index_construction.py:155-164 | the two-day log gives two rows with the column present and raises as written |

## Left out

- The network client (`fetch_data.py`, `StockDataFetcher`): what the fetch returns is the `FetchOutcome` input.
- The dashboard and the CSV export: rendering and file output only.
- Connection setup, table creation, the `display_*` helpers, `close_connection`, logging and the module-level prints: store plumbing with no effect on the tables' contents.
- Default dates from `datetime.now()`: every date is an explicit parameter.
- `update_time` and the `id` column: they are filled in by the store, and the queries read them only to discard them.
- Store.InsertTickerDetails: a payload without a ticker is not modelled. The key column is a plain `TEXT PRIMARY KEY` (save_db.py:48), and the payload's ticker is read with `.get` (save_db.py:142), so SQLite stores a NULL ticker and `INSERT OR REPLACE` adds a new row on every such call; such rows never join a price, so selection is unaffected.
- Store.PriceRows: only two error kinds for a bar's timestamp are modelled, `TypeError` when it is missing and `ValueError` when its year falls outside 1 to 9999 (save_db.py:208). For timestamps beyond roughly ±6.8e19 ms, CPython's `utcfromtimestamp` raises `OSError` or `OverflowError` instead; the exact bounds depend on the platform's C library, and the builder catches every kind alike (index_construction.py:54), so only the error name differs.
- Store.InsertStockPrices: a bar dated before year 1000 is stored under its day number, while `strftime('%Y-%m-%d')` (save_db.py:209) writes such a year with fewer than four digits on Linux. Those strings sort differently from the day numbers under `<`, `BETWEEN` and `ORDER BY`, so for such rows the model's ordering of days is not the source's.
- NULL values inside a bar other than the timestamp, and a `results` key that is present but NULL: bars carry every other value.
- Floating-point rounding: levels, weights and returns are exact reals.
- pandas' wrapping of a driver error inside `read_sql_query`: `execute_query` is modelled as its code reads, answering a store error with an empty frame.
- Changes.Symbols: a multiset, not the concatenated string. Two orderings of one day's tickers compare equal here, and tickers containing a comma are not told apart from their parts.
- Changes.DetectIndexChanges: rows come back in increasing day order. The outer query has no `ORDER BY`, so that order is what SQLite's grouping yields, not a promise of the SQL.
- Performance.PerformanceSeries: the in-place `fillna` on a column slice is taken to update the frame (the pre-copy-on-write pandas behaviour).
- Performance.Compound: an infinite return, which only follows a zero level, compounds to 0.
- Store.AppendChanges: the corrected log keeps `prev_date` as well, although the change table has no such column.

## Findings

| source | as written | input that shows it | evidently intended | confidence | as-written member | corrected member |
|---|---|---|---|---|---|---|
| market_env/src/save_db.py:284-288 | the composition `INSERT` binds 4 placeholders, while the builder passes 5-value tuples (index_construction.py:71) | any non-empty selection, such as one row for one ticker | the selected rows are recorded in the composition log | high, not executed | Store.InsertCompositionAsWritten, Store.CompositionWriteLost | Store.AppendComposition |
| market_env/src/save_db.py:326-328 | the change `INSERT` binds 3 placeholders, while the detector passes 4-value tuples (index_construction.py:199) | any non-empty change result, such as a first day | the reported rows are recorded in the change log | high, not executed | Store.InsertChangesAsWritten, Store.ChangeWriteLost | Store.AppendChanges |
| market_env/src/save_db.py:98-107 | the composition table has no `market_cap` column, while both composition queries select and group by it (index_construction.py:103-105, 155-164) | a table created by `_create_tables` holding one tuple joined to one price | the queries see the composition tuples | medium, not executed (a table created earlier with that column would work) | Performance.TrackIndexPerformanceAsWritten, Performance.MissingColumnHidesSeries, Changes.DetectIndexChangesAsWritten, Changes.MissingColumnRaises | Performance.TrackIndexPerformance, Changes.DetectIndexChanges |

=== FILE: changes.dfy ===
/** Composition change detection: `detect_index_changes` of
    market_env/src/index_construction.py. Each day of the composition log has
    a symbol list (the tickers of its distinct tuples); a day is reported when
    it has no earlier day in the log or its symbol list differs from the
    nearest earlier day's, and it lies inside the range. */
module Changes {
  import opened Common
  import opened Store

  /** `GROUP_CONCAT(ticker)` for day `d`: one ticker per tuple of that day.
      The concatenation order SQLite picks is unspecified, so the list is
      kept as a multiset. */
  function Symbols(tuples: seq<CompositionRow>, d: Date): (m: multiset<Ticker>)
    ensures forall t :: t in m <==> exists i :: 0 <= i < |tuples| && tuples[i].date == d && tuples[i].ticker == t
  {
    if tuples == [] then multiset{}
    else
      var init := tuples[..|tuples| - 1];
      var c := tuples[|tuples| - 1];
      assert forall i :: 0 <= i < |init| ==> init[i] == tuples[i];
      Symbols(init, d) + (if c.date == d then multiset{c.ticker} else multiset{})
  }

  /** The positions of the log holding a tuple of day `d` for ticker `t`. */
  function Occurrences(tuples: seq<CompositionRow>, d: Date, t: Ticker): set<int> {
    set i | 0 <= i < |tuples| && tuples[i].date == d && tuples[i].ticker == t
  }

  /** The positions of a log with one more tuple: those of the shorter log,
      plus the new position when the new tuple matches. */
  lemma OccurrencesSnoc(tuples: seq<CompositionRow>, d: Date, t: Ticker)
    requires tuples != []
    ensures var n := |tuples| - 1;
            var c := tuples[n];
            Occurrences(tuples, d, t)
            == Occurrences(tuples[..n], d, t) + (if c.date == d && c.ticker == t then {n} else {})
  {
    var n := |tuples| - 1;
    var init := tuples[..n];
    var c := tuples[n];
    forall i ensures i in Occurrences(tuples, d, t) <==>
                     i in Occurrences(init, d, t) + (if c.date == d && c.ticker == t then {n} else {}) {
      if 0 <= i < n {
        assert init[i] == tuples[i];
      }
    }
  }

  /** `GROUP_CONCAT` lists a ticker once per tuple of the day that carries
      it: a ticker with two value versions on one day appears twice. */
  lemma {:induction false} SymbolsCount(tuples: seq<CompositionRow>, d: Date, t: Ticker)
    ensures Symbols(tuples, d)[t] == |Occurrences(tuples, d, t)|
  {
    if tuples == [] {
      assert Occurrences(tuples, d, t) == {};
    } else {
      var n := |tuples| - 1;
      var init := tuples[..n];
      var c := tuples[n];
      SymbolsCount(init, d, t);
      OccurrencesSnoc(tuples, d, t);
      if c.date == d && c.ticker == t {
        AddFresh(Occurrences(init, d, t), n);
      }
    }
  }

  /** `d` has at least one tuple in the log. */
  predicate IsDay(tuples: seq<CompositionRow>, d: Date) {
    exists i :: 0 <= i < |tuples| && tuples[i].date == d
  }

  /** The days of the log in increasing order (`GROUP BY date`). */
  function Days(tuples: seq<CompositionRow>): (ds: seq<Date>)
    ensures StrictlyIncreasing(ds)
    ensures forall d :: d in ds <==> IsDay(tuples, d)
  {
    var all := seq(|tuples|, i requires 0 <= i < |tuples| => tuples[i].date);
    assert forall d :: d in all <==> IsDay(tuples, d) by {
      forall d | IsDay(tuples, d) ensures d in all {
        var i :| 0 <= i < |tuples| && tuples[i].date == d;
        assert all[i] == d;
      }
    }
    SortedDistinct(all)
  }

  /** The greatest value of `ds` below `d` (the correlated subquery
      `WHERE prev.date < dc.date ORDER BY prev.date DESC LIMIT 1`), or
      `None` (SQL `NULL`) when there is none. */
  function PrevDate(ds: seq<Date>, d: Date): (r: Option<Date>)
    ensures r.None? <==> forall y :: y in ds ==> d <= y
    ensures r.Some? ==> r.value in ds && r.value < d
    ensures r.Some? ==> forall y :: y in ds && y < d ==> y <= r.value
  {
    if ds == [] then None
    else
      var init := ds[..|ds| - 1];
      var y := ds[|ds| - 1];
      assert ds == init + [y];
      var p := PrevDate(init, d);
      assert forall z :: z in ds <==> z in init || z == y;
      if y < d && (p.None? || p.value < y) then
        assert y in ds;
        Some(y)
      else p
  }

  /** The row the `changes` CTE builds for day `d`. */
  function Record(tuples: seq<CompositionRow>, ds: seq<Date>, d: Date): ChangeRow {
    var p := PrevDate(ds, d);
    ChangeRow(d, Symbols(tuples, d), p, if p.Some? then Some(Symbols(tuples, p.value)) else None)
  }

  /** `symbols != prev_symbols OR prev_symbols IS NULL`. */
  predicate Reported(r: ChangeRow) {
    r.prevSymbols.None? || r.prevSymbols.value != r.symbols
  }

  predicate DatesIncreasing(rows: seq<ChangeRow>) {
    forall i, j :: 0 <= i < j < |rows| ==> rows[i].date < rows[j].date
  }

  /** The rows of `recs` inside the range that are reported
      (`WHERE ... AND date BETWEEN ? AND ?`), in their order. */
  function Filter(recs: seq<ChangeRow>, start: Date, end: Date): (rows: seq<ChangeRow>)
    ensures forall r :: r in rows <==> r in recs && start <= r.date <= end && Reported(r)
  {
    if recs == [] then []
    else
      var rest := Filter(recs[1..], start, end);
      assert forall r :: r in recs <==> r == recs[0] || r in recs[1..] by {
        assert recs == [recs[0]] + recs[1..];
      }
      if start <= recs[0].date <= end && Reported(recs[0]) then [recs[0]] + rest else rest
  }

  /** Filtering keeps rows in order of increasing day. */
  lemma {:induction false} FilterIncreasing(recs: seq<ChangeRow>, start: Date, end: Date)
    requires DatesIncreasing(recs)
    ensures DatesIncreasing(Filter(recs, start, end))
  {
    if recs != [] {
      var rest := Filter(recs[1..], start, end);
      FilterIncreasing(recs[1..], start, end);
      forall i | 0 <= i < |rest| ensures recs[0].date < rest[i].date {
        assert rest[i] in recs[1..];
      }
    }
  }

  /** The `changes` CTE: one row per day of the log, by increasing day. */
  function Records(tuples: seq<CompositionRow>): (recs: seq<ChangeRow>)
    ensures DatesIncreasing(recs)
    ensures forall r :: r in recs <==> IsDay(tuples, r.date) && r == Record(tuples, Days(tuples), r.date)
  {
    var ds := Days(tuples);
    var recs := seq(|ds|, i requires 0 <= i < |ds| => Record(tuples, ds, ds[i]));
    assert forall r :: r in recs <==> r.date in ds && r == Record(tuples, ds, r.date) by {
      forall r: ChangeRow | r.date in ds && r == Record(tuples, ds, r.date) ensures r in recs {
        var i :| 0 <= i < |ds| && ds[i] == r.date;
        assert recs[i] == r;
      }
    }
    recs
  }

  /** The rows of the query over the tuples of the log, by increasing day. */
  function ChangeRows(tuples: seq<CompositionRow>, start: Date, end: Date): (rows: seq<ChangeRow>)
    ensures DatesIncreasing(rows)
    ensures forall r :: r in rows <==>
              && IsDay(tuples, r.date) && start <= r.date <= end
              && r == Record(tuples, Days(tuples), r.date) && Reported(r)
  {
    FilterIncreasing(Records(tuples), start, end);
    Filter(Records(tuples), start, end)
  }

  datatype Detected = Detected(state: State, rows: seq<ChangeRow>)

  /** `detect_index_changes(start, end)`. The change rows are computed over
      the distinct tuples of the whole composition log and filtered to the
      range; they are appended to the change log (a store error there rolls
      back) and returned. A store error on the query gives a frame without
      columns, and selecting the four columns from it raises `KeyError`
      before anything is written. */
  function DetectIndexChanges(s: State, start: Date, end: Date, f: Faults): (r: Result<Detected>)
    ensures r.Ok? <==> !f.query
    ensures r.Raised? ==> r.error == KeyError
    ensures r.Ok? ==> r.value.rows == ChangeRows(Distinct(s.composition), start, end)
    ensures r.Ok? ==> DatesIncreasing(r.value.rows)
    ensures r.Ok? && !f.indexWrite ==>
              AppendedTo(s.changes, r.value.state.changes, r.value.rows)
              && r.value.state == s.(changes := r.value.state.changes)
    ensures r.Ok? && f.indexWrite ==> r.value.state == s
  {
    if f.query then Raised(KeyError)
    else
      var tuples := Distinct(s.composition);
      var rows := ChangeRows(tuples, start, end);
      var w := AppendChanges(s, rows, f.indexWrite);
      Ok(Detected(w.state, rows))
  }

  /** `p` is the latest day of the log before `d`. */
  ghost predicate NearestEarlier(tuples: seq<CompositionRow>, p: Date, d: Date) {
    && IsDay(tuples, p) && p < d
    && forall q :: IsDay(tuples, q) && q < d ==> q <= p
  }

  /** The predecessor the query looks up is the nearest earlier day of the
      whole log, wherever the range starts. */
  lemma PrevIsNearestEarlier(tuples: seq<CompositionRow>, p: Date, d: Date)
    requires NearestEarlier(tuples, p, d)
    ensures PrevDate(Days(tuples), d) == Some(p)
  {
    assert p in Days(tuples);
  }

  /** What a row of the query states about the log: its predecessor is the
      nearest earlier day, if any, and the symbol lists differ. */
  ghost predicate Describes(tuples: seq<CompositionRow>, r: ChangeRow) {
    && (r.prevDate.None? <==> forall q :: IsDay(tuples, q) ==> r.date <= q)
    && (r.prevDate.None? ==> r.prevSymbols.None?)
    && (r.prevDate.Some? ==>
          && NearestEarlier(tuples, r.prevDate.value, r.date)
          && r.prevSymbols == Some(Symbols(tuples, r.prevDate.value))
          && r.prevSymbols.value != r.symbols)
  }

  /** Every row of the query compares its day with the nearest earlier day
      of the whole log, and is there because there is none or because the
      symbol lists differ. */
  lemma RowMeaning(tuples: seq<CompositionRow>, start: Date, end: Date, r: ChangeRow)
    requires r in ChangeRows(tuples, start, end)
    ensures Describes(tuples, r)
  {
    var ds := Days(tuples);
    var pd := PrevDate(ds, r.date);
    assert r == Record(tuples, ds, r.date);
    if pd.None? {
      forall q | IsDay(tuples, q) ensures r.date <= q {
        assert q in ds;
      }
    } else {
      assert IsDay(tuples, pd.value);
      forall q | IsDay(tuples, q) && q < r.date ensures q <= pd.value {
        assert q in ds;
      }
    }
  }

  /** A day of the range with no earlier day in the log is always reported,
      as an initialization with no predecessor. */
  lemma FirstDayReported(tuples: seq<CompositionRow>, start: Date, end: Date, d: Date)
    requires IsDay(tuples, d) && start <= d <= end
    requires forall q :: IsDay(tuples, q) ==> d <= q
    ensures var rows := ChangeRows(tuples, start, end);
            exists i :: 0 <= i < |rows| && rows[i].date == d && rows[i].prevDate.None?
  {
    var r := Record(tuples, Days(tuples), d);
    assert r.prevDate.None?;
    var rows := ChangeRows(tuples, start, end);
    assert r in rows;
  }

  /** A day of the range whose symbol list differs from the nearest earlier
      day's is reported, against that day. */
  lemma ChangedDayReported(tuples: seq<CompositionRow>, start: Date, end: Date, p: Date, d: Date)
    requires IsDay(tuples, d) && start <= d <= end
    requires NearestEarlier(tuples, p, d)
    requires Symbols(tuples, p) != Symbols(tuples, d)
    ensures var rows := ChangeRows(tuples, start, end);
            exists i :: 0 <= i < |rows| && rows[i].date == d && rows[i].prevDate == Some(p)
  {
    PrevIsNearestEarlier(tuples, p, d);
    var r := Record(tuples, Days(tuples), d);
    var rows := ChangeRows(tuples, start, end);
    assert r in rows;
  }

  /** A day whose symbol list equals the nearest earlier day's is never
      reported. */
  lemma UnchangedDayNotReported(tuples: seq<CompositionRow>, start: Date, end: Date, p: Date, d: Date)
    requires NearestEarlier(tuples, p, d)
    requires Symbols(tuples, p) == Symbols(tuples, d)
    ensures var rows := ChangeRows(tuples, start, end);
            forall i :: 0 <= i < |rows| ==> rows[i].date != d
  {
    PrevIsNearestEarlier(tuples, p, d);
    var rows := ChangeRows(tuples, start, end);
    forall i | 0 <= i < |rows| ensures rows[i].date != d {
      assert rows[i] in rows;
    }
  }

  /** Adding a composition tuple identical to one already stored changes no
      detected row. */
  lemma RepeatedTupleKeepsChanges(s: State, c: CompositionRow, start: Date, end: Date, f: Faults)
    requires c in s.composition
    ensures var before := DetectIndexChanges(s, start, end, f);
            var after := DetectIndexChanges(s.(composition := s.composition + [c]), start, end, f);
            && (after.Ok? <==> before.Ok?)
            && (after.Ok? ==> after.value.rows == before.value.rows)
  {
    DistinctAppend(s.composition, c);
    assert Distinct(s.(composition := s.composition + [c]).composition) == Distinct(s.composition);
  }

  /** A day's tuples: one ticker each, at weight 1/2. */
  function Day(d: Date, a: Ticker, b: Ticker): seq<CompositionRow> {
    [CompositionRow(d, a, 10.0, 0.5, 100.0), CompositionRow(d, b, 10.0, 0.5, 100.0)]
  }

  /** The log of the two-day example. */
  function TwoDays(): seq<CompositionRow> {
    Day(1, "AAA", "BBB") + Day(2, "AAA", "CCC")
  }

  lemma TwoDaysDistinct()
    ensures Distinct(TwoDays()) == TwoDays()
  {
    assert NoDuplicates(TwoDays());
    DistinctOfNoDuplicates(TwoDays());
  }

  lemma TwoDaysDays()
    ensures forall q :: IsDay(TwoDays(), q) ==> q == 1 || q == 2
    ensures IsDay(TwoDays(), 1) && IsDay(TwoDays(), 2)
  {
    assert TwoDays()[0].date == 1 && TwoDays()[2].date == 2;
  }

  lemma TwoDaysSymbolsDiffer(tuples: seq<CompositionRow>)
    requires tuples == Day(1, "AAA", "BBB") + Day(2, "AAA", "CCC")
    ensures Symbols(tuples, 1) != Symbols(tuples, 2)
  {
    assert |tuples| == 4;
    assert tuples[1].date == 1 && tuples[1].ticker == "BBB";
    assert "BBB" in Symbols(tuples, 1);
    assert tuples[2].ticker == "AAA" && tuples[3].ticker == "CCC";
    assert tuples[0].date == 1 && tuples[1].date == 1;
    assert forall i :: 0 <= i < |tuples| && tuples[i].date == 2 ==> tuples[i].ticker != "BBB";
    assert "BBB" !in Symbols(tuples, 2);
  }

  /** Rows with increasing days drawn from days 1 and 2, with day 1 having
      no predecessor and day 2 having day 1, are exactly those two. */
  lemma TwoRows(rows: seq<ChangeRow>)
    requires DatesIncreasing(rows)
    requires forall k :: 0 <= k < |rows| ==> rows[k].date == 1 || rows[k].date == 2
    requires exists i :: 0 <= i < |rows| && rows[i].date == 1 && rows[i].prevDate.None?
    requires exists j :: 0 <= j < |rows| && rows[j].date == 2 && rows[j].prevDate == Some(1)
    ensures |rows| == 2
    ensures rows[0].date == 1 && rows[0].prevDate == None
    ensures rows[1].date == 2 && rows[1].prevDate == Some(1)
  {
    var i :| 0 <= i < |rows| && rows[i].date == 1 && rows[i].prevDate.None?;
    var j :| 0 <= j < |rows| && rows[j].date == 2 && rows[j].prevDate == Some(1);
    assert i == 0 by {
      if i > 0 { assert false; }
    }
    assert |rows| >= 2 && rows[1].date == 2;
    assert j == 1;
  }

  /** The query over the two-day log reports no other day. */
  lemma TwoDayRowDates(start: Date, end: Date)
    ensures var rows := ChangeRows(TwoDays(), start, end);
            forall k :: 0 <= k < |rows| ==> rows[k].date == 1 || rows[k].date == 2
  {
    TwoDaysDays();
    var rows := ChangeRows(TwoDays(), start, end);
    forall k | 0 <= k < |rows| ensures rows[k].date == 1 || rows[k].date == 2 {
      assert rows[k] in rows;
    }
  }

  /** The query over the two-day log reports day 1 without predecessor and
      day 2 against day 1. */
  lemma TwoDayFacts(start: Date, end: Date)
    requires start <= 1 && 2 <= end
    ensures var rows := ChangeRows(TwoDays(), start, end);
            && (exists i :: 0 <= i < |rows| && rows[i].date == 1 && rows[i].prevDate.None?)
            && (exists j :: 0 <= j < |rows| && rows[j].date == 2 && rows[j].prevDate == Some(1))
  {
    var tuples := TwoDays();
    TwoDaysDays();
    TwoDaysSymbolsDiffer(tuples);
    FirstDayReported(tuples, start, end, 1);
    assert NearestEarlier(tuples, 1, 2);
    ChangedDayReported(tuples, start, end, 1, 2);
  }

  /** Day 1 holds AAA and BBB, day 2 holds AAA and CCC. Over any range that
      covers both days two rows come back: day 1 as an initialization
      without predecessor and day 2 as a change against day 1. */
  lemma TwoDayScenario(s: State, start: Date, end: Date, f: Faults)
    requires s.composition == TwoDays() && !f.query && start <= 1 && 2 <= end
    ensures var rows := DetectIndexChanges(s, start, end, f).value.rows;
            && |rows| == 2
            && rows[0].date == 1 && rows[0].prevDate == None
            && rows[1].date == 2 && rows[1].prevDate == Some(1)
  {
    TwoDaysDistinct();
    TwoDayRowDates(start, end);
    TwoDayFacts(start, end);
    TwoRows(ChangeRows(TwoDays(), start, end));
  }

  /** A log whose day 1 was built twice: first with AAA alone at weight 1,
      then with AAA and BBB at weight 1/2; day 2 holds AAA and BBB. */
  function RebuiltLog(): seq<CompositionRow> {
    [CompositionRow(1, "AAA", 10.0, 1.0, 100.0)] + Day(1, "AAA", "BBB") + Day(2, "AAA", "BBB")
  }

  lemma RebuiltLogDistinct()
    ensures Distinct(RebuiltLog()) == RebuiltLog()
  {
    assert NoDuplicates(RebuiltLog());
    DistinctOfNoDuplicates(RebuiltLog());
  }

  /** The days and tickers of the rebuilt log, position by position. */
  predicate RebuiltShape(tuples: seq<CompositionRow>) {
    && |tuples| == 5
    && tuples[0].date == 1 && tuples[1].date == 1 && tuples[2].date == 1
    && tuples[3].date == 2 && tuples[4].date == 2
    && tuples[0].ticker == "AAA" && tuples[1].ticker == "AAA" && tuples[2].ticker == "BBB"
    && tuples[3].ticker == "AAA" && tuples[4].ticker == "BBB"
  }

  lemma RebuiltEntries()
    ensures RebuiltShape(RebuiltLog())
  {
  }

  /** Day 1 lists AAA twice and day 2 once. */
  lemma RebuiltCounts(tuples: seq<CompositionRow>)
    requires RebuiltShape(tuples)
    ensures Symbols(tuples, 1)["AAA"] == 2 && Symbols(tuples, 2)["AAA"] == 1
  {
    assert "BBB" != "AAA" by { assert "BBB"[0] != "AAA"[0]; }
    SymbolsCount(tuples, 1, "AAA");
    SymbolsCount(tuples, 2, "AAA");
    forall i ensures i in Occurrences(tuples, 1, "AAA") <==> i in {0, 1} {
      if i in Occurrences(tuples, 1, "AAA") {
        assert 0 <= i < 5 && tuples[i].date == 1 && tuples[i].ticker == "AAA";
        assert i != 2 && i != 3 && i != 4;
      }
    }
    forall i ensures i in Occurrences(tuples, 2, "AAA") <==> i in {3} {
      if i in Occurrences(tuples, 2, "AAA") {
        assert 0 <= i < 5 && tuples[i].date == 2 && tuples[i].ticker == "AAA";
        assert i != 0 && i != 1 && i != 2 && i != 4;
      }
    }
    assert Occurrences(tuples, 1, "AAA") == {0, 1};
    assert Occurrences(tuples, 2, "AAA") == {3};
  }

  lemma RebuiltTickersForward(tuples: seq<CompositionRow>, t: Ticker)
    requires RebuiltShape(tuples) && t in Symbols(tuples, 1)
    ensures t in Symbols(tuples, 2)
  {
    var i :| 0 <= i < |tuples| && tuples[i].date == 1 && tuples[i].ticker == t;
    if i == 2 {
      assert tuples[4].date == 2 && tuples[4].ticker == t;
    } else {
      assert tuples[3].date == 2 && tuples[3].ticker == t;
    }
  }

  lemma RebuiltTickersBackward(tuples: seq<CompositionRow>, t: Ticker)
    requires RebuiltShape(tuples) && t in Symbols(tuples, 2)
    ensures t in Symbols(tuples, 1)
  {
    var i :| 0 <= i < |tuples| && tuples[i].date == 2 && tuples[i].ticker == t;
    if i == 3 {
      assert tuples[0].date == 1 && tuples[0].ticker == t;
    } else {
      assert tuples[2].date == 1 && tuples[2].ticker == t;
    }
  }

  /** Both days hold the same tickers. */
  lemma RebuiltTickers(tuples: seq<CompositionRow>)
    requires RebuiltShape(tuples)
    ensures forall t :: t in Symbols(tuples, 1) <==> t in Symbols(tuples, 2)
  {
    forall t ensures t in Symbols(tuples, 1) <==> t in Symbols(tuples, 2) {
      if t in Symbols(tuples, 1) {
        RebuiltTickersForward(tuples, t);
      }
      if t in Symbols(tuples, 2) {
        RebuiltTickersBackward(tuples, t);
      }
    }
  }

  /** Over the rebuilt log, day 2 is reported against day 1. */
  lemma RebuiltFacts(tuples: seq<CompositionRow>, start: Date, end: Date)
    requires RebuiltShape(tuples) && start <= 2 <= end
    ensures var rows := ChangeRows(tuples, start, end);
            exists i :: 0 <= i < |rows| && rows[i].date == 2 && rows[i].prevDate == Some(1)
  {
    RebuiltCounts(tuples);
    assert forall i :: 0 <= i < |tuples| ==> tuples[i].date == 1 || tuples[i].date == 2;
    assert IsDay(tuples, 1) && IsDay(tuples, 2) by {
      assert tuples[0].date == 1 && tuples[3].date == 2;
    }
    assert NearestEarlier(tuples, 1, 2);
    ChangedDayReported(tuples, start, end, 1, 2);
  }

  /** Rebuilding a day with an extra version of a ticker is a change: day 2
      is reported against day 1, although both days hold AAA and BBB. */
  lemma RebuiltDayReported(s: State, start: Date, end: Date, f: Faults)
    requires s.composition == RebuiltLog() && !f.query && start <= 2 <= end
    ensures forall t :: t in Symbols(s.composition, 1) <==> t in Symbols(s.composition, 2)
    ensures var rows := DetectIndexChanges(s, start, end, f).value.rows;
            exists i :: 0 <= i < |rows| && rows[i].date == 2 && rows[i].prevDate == Some(1)
  {
    RebuiltLogDistinct();
    RebuiltEntries();
    RebuiltTickers(RebuiltLog());
    RebuiltFacts(RebuiltLog(), start, end);
  }

  /** `detect_index_changes` against a composition table created by
      `_create_tables`: the query names a column the table lacks, the frame
      comes back without columns and every call raises `KeyError`. */
  function DetectIndexChangesAsWritten(s: State, start: Date, end: Date, f: Faults): (r: Result<Detected>)
    ensures r == Raised(KeyError)
  {
    DetectIndexChanges(s, start, end, QueryFaultAsWritten(f))
  }

  /** Counterexample: with the column present the two-day log yields its
      two rows; as written the call raises. */
  lemma MissingColumnRaises(s: State)
    requires s.composition == TwoDays()
    ensures DetectIndexChanges(s, 1, 2, NoFaults).Ok?
    ensures |DetectIndexChanges(s, 1, 2, NoFaults).value.rows| == 2
    ensures DetectIndexChangesAsWritten(s, 1, 2, NoFaults) == Raised(KeyError)
  {
    TwoDayScenario(s, 1, 2, NoFaults);
  }
}

=== FILE: common.dfy ===
/** Values shared by the store and the three index computations: optional
    values, the Python exceptions that escape the core, calendar days, and
    the sequence helpers the SQL queries are rebuilt from. */
module Common {

  datatype Option<+T> = None | Some(value: T) {
    /** The value, or `default` when absent (Python's `dict.get(key, default)`). */
    function GetOr(default: T): T {
      match this
      case Some(v) => v
      case None => default
    }
  }

  /** The exceptions that leave a store or index operation uncaught. */
  datatype PyError =
    | TypeError        // arithmetic on a missing payload value
    | ValueError       // a timestamp whose calendar year is outside 1..9999 (see `Store.Dated`)
    | AttributeError   // `.get` called on a nested payload value that is not an object
    | KeyError         // column selection on a frame that has no columns
    | FetchError       // any exception raised by the price fetch

  datatype Result<+T> = Ok(value: T) | Raised(error: PyError)

  /** A calendar day, counted in days from 1970-01-01 (UTC). From year 1000
      on, day numbers order exactly as the `YYYY-MM-DD` strings they stand
      for; earlier years are written with fewer than four digits and sort
      differently as strings. */
  type Date = int

  type Ticker = string

  const MillisPerDay: int := 86_400_000

  /** The UTC calendar day that contains the instant `ms` milliseconds after
      the epoch. */
  function UtcDay(ms: int): (d: Date)
    ensures d * MillisPerDay <= ms < d * MillisPerDay + MillisPerDay
  {
    ms / MillisPerDay
  }

  /** The days of 0001-01-01 and 9999-12-31, the range of Python's
      `datetime`. */
  const FirstDay: int := -719_162
  const LastDay: int := 2_932_896

  /** The day containing an instant is the only day whose span contains it. */
  lemma UtcDayUnique(ms: int, d: Date)
    requires d * MillisPerDay <= ms < d * MillisPerDay + MillisPerDay
    ensures UtcDay(ms) == d
  {
  }

  /** Adding a new element to a finite set raises its size by one. */
  lemma AddFresh(xs: set<int>, n: int)
    requires n !in xs
    ensures |xs + {n}| == |xs| + 1
  {
  }

  function Sum(xs: seq<real>): real
  {
    if xs == [] then 0.0 else Sum(xs[..|xs| - 1]) + xs[|xs| - 1]
  }

  /** A sequence of `n` copies of `w` sums to `n * w`. */
  lemma {:induction false} SumConstant(xs: seq<real>, w: real)
    requires forall i :: 0 <= i < |xs| ==> xs[i] == w
    ensures Sum(xs) == |xs| as real * w
  {
    if xs != [] {
      SumConstant(xs[..|xs| - 1], w);
    }
  }

  predicate NoDuplicates<T(==)>(xs: seq<T>) {
    forall i, j :: 0 <= i < j < |xs| ==> xs[i] != xs[j]
  }

  /** The distinct elements of `xs`, each at its first occurrence: the rows
      of `SELECT ... GROUP BY <every column>`. */
  function Distinct<T(==)>(xs: seq<T>): (r: seq<T>)
    ensures forall i :: 0 <= i < |r| ==> r[i] in xs
    ensures forall i :: 0 <= i < |xs| ==> xs[i] in r
    ensures NoDuplicates(r)
  {
    if xs == [] then []
    else
      var r := Distinct(xs[..|xs| - 1]);
      var x := xs[|xs| - 1];
      assert forall i :: 0 <= i < |xs| - 1 ==> xs[i] == xs[..|xs| - 1][i];
      if x in r then r else r + [x]
  }

  /** Adding a value that is already present does not change the distinct
      values; adding a new one appends it. */
  lemma DistinctAppend<T>(xs: seq<T>, x: T)
    ensures x in xs ==> Distinct(xs + [x]) == Distinct(xs)
    ensures x !in xs ==> Distinct(xs + [x]) == Distinct(xs) + [x]
  {
    assert (xs + [x])[..|xs|] == xs;
  }

  /** A sequence without repeated values is its own distinct values. */
  lemma {:induction false} DistinctOfNoDuplicates<T>(xs: seq<T>)
    requires NoDuplicates(xs)
    ensures Distinct(xs) == xs
  {
    if xs != [] {
      var init := xs[..|xs| - 1];
      DistinctOfNoDuplicates(init);
      assert xs[|xs| - 1] !in init;
      assert xs == init + [xs[|xs| - 1]];
    }
  }

  predicate StrictlyIncreasing(xs: seq<int>) {
    forall i, j :: 0 <= i < j < |xs| ==> xs[i] < xs[j]
  }

  function InsertSorted(xs: seq<int>, x: int): (r: seq<int>)
    requires StrictlyIncreasing(xs)
    ensures StrictlyIncreasing(r)
    ensures forall y :: y in r <==> y in xs || y == x
  {
    if xs == [] then [x]
    else if x < xs[0] then [x] + xs
    else if x == xs[0] then xs
    else
      var tail := InsertSorted(xs[1..], x);
      assert xs == [xs[0]] + xs[1..];
      assert forall y :: y in xs[1..] ==> xs[0] < y;
      assert forall y :: y in tail ==> xs[0] < y;
      var r := [xs[0]] + tail;
      assert forall j :: 0 < j < |r| ==> r[j] == tail[j - 1] && r[j] in tail;
      r
  }

  /** The distinct values of `xs` in increasing order (`GROUP BY ... ORDER BY`). */
  function SortedDistinct(xs: seq<int>): (r: seq<int>)
    ensures StrictlyIncreasing(r)
    ensures forall y :: y in r <==> y in xs
  {
    if xs == [] then []
    else
      var r := InsertSorted(SortedDistinct(xs[1..]), xs[0]);
      assert forall y :: y in xs <==> y == xs[0] || y in xs[1..] by {
        assert xs == [xs[0]] + xs[1..];
      }
      r
  }
}

=== FILE: performance.dfy ===
/** Index level and return series: `track_index_performance` of
    market_env/src/index_construction.py. For each day of the range, the
    index level is Σ weight × close over the distinct composition tuples of
    that day joined to that day's prices on ticker; the daily return is the
    percentage change from the previous row of the same series, and 0 for the
    first row. */
module Performance {
  import opened Common
  import opened Store

  /** A composition tuple and a price row join on (ticker, date). */
  predicate Joins(c: CompositionRow, p: PriceRow) {
    c.ticker == p.ticker && c.date == p.date
  }

  /** Σ c.weight × p.close over the price rows `p` that join `c`; a tuple
      meets one price row per stored timestamp of its ticker on its day. */
  function Contribution(c: CompositionRow, prices: seq<PriceRow>): real
  {
    if prices == [] then 0.0
    else
      var p := prices[|prices| - 1];
      Contribution(c, prices[..|prices| - 1]) + (if Joins(c, p) then c.weight * p.close else 0.0)
  }

  /** Σ of the contributions of the tuples of day `d`. */
  function DayTotal(tuples: seq<CompositionRow>, prices: seq<PriceRow>, d: Date): real
  {
    if tuples == [] then 0.0
    else
      var c := tuples[|tuples| - 1];
      DayTotal(tuples[..|tuples| - 1], prices, d) + (if c.date == d then Contribution(c, prices) else 0.0)
  }

  /** `SUM(ic.weight * sp.close)` for day `d`. The composition side is the
      set of distinct value tuples: repeated identical tuples count once,
      tuples that differ in any value all count. */
  function IndexPrice(s: State, d: Date): (level: real)
    ensures !HasJoin(Distinct(s.composition), s.prices, d) ==> level == 0.0
  {
    DayTotalNoJoin(Distinct(s.composition), s.prices, d);
    DayTotal(Distinct(s.composition), s.prices, d)
  }

  /** A tuple that meets no price row contributes nothing. */
  lemma {:induction false} ContributionNoJoin(c: CompositionRow, prices: seq<PriceRow>)
    ensures (forall p :: p in prices ==> !Joins(c, p)) ==> Contribution(c, prices) == 0.0
  {
    if prices != [] && forall p :: p in prices ==> !Joins(c, p) {
      var init := prices[..|prices| - 1];
      assert forall p :: p in init ==> p in prices;
      ContributionNoJoin(c, init);
      assert prices[|prices| - 1] in prices;
    }
  }

  /** A day on which no tuple meets a price row has level 0. */
  lemma {:induction false} DayTotalNoJoin(tuples: seq<CompositionRow>, prices: seq<PriceRow>, d: Date)
    ensures !HasJoin(tuples, prices, d) ==> DayTotal(tuples, prices, d) == 0.0
  {
    if tuples != [] && !HasJoin(tuples, prices, d) {
      var init := tuples[..|tuples| - 1];
      var c := tuples[|tuples| - 1];
      assert forall x :: x in init ==> x in tuples;
      DayTotalNoJoin(init, prices, d);
      if c.date == d {
        assert c in tuples;
        ContributionNoJoin(c, prices);
      }
    }
  }

  /** Some tuple of day `d` meets some price row: the day has a group in the
      query's result. */
  ghost predicate HasJoin(tuples: seq<CompositionRow>, prices: seq<PriceRow>, d: Date) {
    exists c, p :: c in tuples && p in prices && c.date == d && Joins(c, p)
  }

  /** The day of every tuple that meets at least one price row. */
  function JoinedDates(tuples: seq<CompositionRow>, prices: seq<PriceRow>): (ds: seq<Date>)
    ensures forall d :: d in ds <==> HasJoin(tuples, prices, d)
  {
    if tuples == [] then []
    else
      var c := tuples[0];
      var rest := JoinedDates(tuples[1..], prices);
      assert forall x :: x in tuples <==> x == c || x in tuples[1..] by {
        assert tuples == [c] + tuples[1..];
      }
      if exists p :: p in prices && Joins(c, p) then [c.date] + rest else rest
  }

  /** The values of `ds` inside `[start, end]` (SQL `BETWEEN`). */
  function Between(ds: seq<Date>, start: Date, end: Date): (r: seq<Date>)
    ensures forall d :: d in r <==> d in ds && start <= d <= end
  {
    if ds == [] then []
    else
      var rest := Between(ds[1..], start, end);
      assert forall x :: x in ds <==> x == ds[0] || x in ds[1..] by {
        assert ds == [ds[0]] + ds[1..];
      }
      if start <= ds[0] <= end then [ds[0]] + rest else rest
  }

  /** The days of the series: `GROUP BY sp.date ORDER BY sp.date` over the
      joined rows inside the range. */
  function SeriesDates(s: State, start: Date, end: Date): (ds: seq<Date>)
    ensures StrictlyIncreasing(ds)
    ensures forall d :: d in ds <==> start <= d <= end && HasJoin(Distinct(s.composition), s.prices, d)
  {
    SortedDistinct(Between(JoinedDates(Distinct(s.composition), s.prices), start, end))
  }

  /** The percentage change from `prev` to `cur`, as `pct_change() * 100`
      followed by `fillna(0)` computes it: a finite change when `prev` is not
      zero (and then `cur` is recovered from `prev` and the change), an
      infinity of the sign of `cur` after a division by zero, and 0 where
      0 / 0 gave NaN. */
  function PctChange(prev: real, cur: real): (r: Pct)
    ensures prev != 0.0 ==> r.Finite? && cur == prev * (1.0 + r.value / 100.0)
    ensures prev == 0.0 ==> (r == Finite(0.0) <==> cur == 0.0)
                            && (r == PosInf <==> cur > 0.0)
                            && (r == NegInf <==> cur < 0.0)
  {
    if prev != 0.0 then
      var q := cur / prev;
      assert prev * q == cur;
      Finite((q - 1.0) * 100.0)
    else if cur == 0.0 then Finite(0.0)
    else if cur > 0.0 then PosInf
    else NegInf
  }

  /** The change in percent does not depend on the scale of the levels: an
      index with every weight multiplied by `k` has the same returns. */
  lemma PctChangeScaleFree(k: real, prev: real, cur: real)
    requires k > 0.0
    ensures PctChange(k * prev, k * cur) == PctChange(prev, cur)
  {
    if prev != 0.0 {
      assert (k * cur) / (k * prev) == cur / prev;
    }
  }

  /** One constituent at 10 then 11, at any positive weight, gives a 10%
      return. */
  lemma TenPercentExample(w: real)
    requires w > 0.0
    ensures PctChange(10.0 * w, 11.0 * w) == Finite(10.0)
  {
    PctChangeScaleFree(w, 10.0, 11.0);
  }

  /** The `daily_return` column for a series of levels: 0 for the first row,
      the change from the previous row for every other. */
  function Returns(ps: seq<real>): (rs: seq<Pct>)
    ensures |rs| == |ps|
    ensures |ps| > 0 ==> rs[0] == Finite(0.0)
    ensures forall i :: 0 < i < |ps| ==> rs[i] == PctChange(ps[i - 1], ps[i])
  {
    if |ps| <= 1 then seq(|ps|, _ => Finite(0.0))
    else Returns(ps[..|ps| - 1]) + [PctChange(ps[|ps| - 2], ps[|ps| - 1])]
  }

  /** The level that follows `level` after a finite return `r`,
      level × (1 + r / 100). An infinite return has no such successor (it
      only follows a zero level); 0 stands in for it. */
  function Grow(level: real, r: Pct): real {
    if r.Finite? then level * (1.0 + r.value / 100.0) else 0.0
  }

  /** Rebuilds a level series from its first level and the returns that
      follow it: each level grows from the previous one by its return. */
  function Compound(p0: real, rs: seq<Pct>): (ps: seq<real>)
    ensures |ps| == |rs| + 1 && ps[0] == p0
  {
    if rs == [] then [p0]
    else
      var prev := Compound(p0, rs[..|rs| - 1]);
      prev + [Grow(prev[|prev| - 1], rs[|rs| - 1])]
  }

  /** Compounding the returns from the first level gives back the series, as
      long as no level before the last is zero. */
  lemma {:induction false} CompoundInvertsReturns(ps: seq<real>)
    requires |ps| > 0
    requires forall i :: 0 <= i < |ps| - 1 ==> ps[i] != 0.0
    ensures forall i :: 0 < i < |ps| ==> Returns(ps)[i].Finite?
    ensures Compound(ps[0], Returns(ps)[1..]) == ps
  {
    var rs := Returns(ps);
    if |ps| > 1 {
      var n := |ps|;
      var init := ps[..n - 1];
      CompoundInvertsReturns(init);
      assert Returns(init) == rs[..n - 1];
      var tail := rs[1..];
      assert tail[..|tail| - 1] == Returns(init)[1..];
      var prev := Compound(ps[0], tail[..|tail| - 1]);
      assert prev == init;
      assert prev[|prev| - 1] == ps[n - 2];
      var last := tail[|tail| - 1];
      assert last == PctChange(ps[n - 2], ps[n - 1]);
      assert Grow(ps[n - 2], last) == ps[n - 1];
      assert Compound(ps[0], tail) == prev + [Grow(prev[|prev| - 1], last)];
      assert ps == init + [ps[n - 1]];
    }
  }

  /** The performance rows for the days `ds`: each day's level over the
      tuples and prices given, and the returns of those levels in order. */
  function Series(tuples: seq<CompositionRow>, prices: seq<PriceRow>, ds: seq<Date>): (series: seq<PerformanceRow>)
    ensures |series| == |ds|
    ensures forall i :: 0 <= i < |ds| ==>
              series[i].date == ds[i] && series[i].indexPrice == DayTotal(tuples, prices, ds[i])
    ensures |series| > 0 ==> series[0].dailyReturn == Finite(0.0)
    ensures forall i :: 0 < i < |series| ==>
              series[i].dailyReturn == PctChange(series[i - 1].indexPrice, series[i].indexPrice)
  {
    var ps := seq(|ds|, i requires 0 <= i < |ds| => DayTotal(tuples, prices, ds[i]));
    var rs := Returns(ps);
    seq(|ds|, i requires 0 <= i < |ds| => PerformanceRow(ds[i], ps[i], rs[i]))
  }

  /** The returns of a series obey the `pct_change` recurrence. */
  predicate ReturnsChain(series: seq<PerformanceRow>) {
    && (|series| > 0 ==> series[0].dailyReturn == Finite(0.0))
    && forall i :: 0 < i < |series| ==>
         series[i].dailyReturn == PctChange(series[i - 1].indexPrice, series[i].indexPrice)
  }

  /** The rows the performance query returns for `[start, end]`: one per
      day on which some distinct tuple meets a price row, in date order, at
      that day's index level, with the `pct_change` returns. A store error on
      the query reads as no rows. */
  function PerformanceSeries(s: State, start: Date, end: Date, queryFault: bool): (series: seq<PerformanceRow>)
    ensures queryFault ==> series == []
    ensures forall i, j :: 0 <= i < j < |series| ==> series[i].date < series[j].date
    ensures forall i :: 0 <= i < |series| ==>
              && start <= series[i].date <= end
              && HasJoin(Distinct(s.composition), s.prices, series[i].date)
              && series[i].indexPrice == IndexPrice(s, series[i].date)
    ensures ReturnsChain(series)
  {
    if queryFault then []
    else
      var ds := SeriesDates(s, start, end);
      var series := Series(Distinct(s.composition), s.prices, ds);
      assert forall i :: 0 <= i < |ds| ==> ds[i] in ds;
      assert ReturnsChain(series);
      series
  }

  /** Every day of the range with a joined tuple has its row. */
  lemma SeriesCoversJoinedDays(s: State, start: Date, end: Date, d: Date)
    requires start <= d <= end && HasJoin(Distinct(s.composition), s.prices, d)
    ensures exists i :: 0 <= i < |PerformanceSeries(s, start, end, false)| &&
                        PerformanceSeries(s, start, end, false)[i].date == d
  {
    var ds := SeriesDates(s, start, end);
    var series := PerformanceSeries(s, start, end, false);
    assert d in ds;
    var i :| 0 <= i < |ds| && ds[i] == d;
    assert series[i].date == d;
  }

  datatype Tracked = Tracked(state: State, series: seq<PerformanceRow>)

  /** `track_index_performance(start, end)`: the performance query, then,
      when it returned rows, their append to the performance log (a store
      error there rolls back). The returned rows are the query's whatever
      the write does. */
  function TrackIndexPerformance(s: State, start: Date, end: Date, f: Faults): (t: Tracked)
    ensures t.series == [] || f.indexWrite ==> t.state == s
    ensures t.series != [] && !f.indexWrite ==>
              AppendedTo(s.performance, t.state.performance, t.series)
              && t.state == s.(performance := t.state.performance)
    ensures t.series == PerformanceSeries(s, start, end, f.query)
  {
    var series := PerformanceSeries(s, start, end, f.query);
    if series == [] then Tracked(s, [])
    else Tracked(AppendPerformance(s, series, f.indexWrite).state, series)
  }

  /** Whatever happens to the write, every day of the range with a joined
      tuple has its row in the returned series, unless the query failed. */
  lemma TrackedCoversJoinedDays(s: State, start: Date, end: Date, f: Faults, d: Date)
    requires !f.query && start <= d <= end && HasJoin(Distinct(s.composition), s.prices, d)
    ensures exists i :: 0 <= i < |TrackIndexPerformance(s, start, end, f).series| &&
                        TrackIndexPerformance(s, start, end, f).series[i].date == d
  {
    SeriesCoversJoinedDays(s, start, end, d);
    assert TrackIndexPerformance(s, start, end, f).series == PerformanceSeries(s, start, end, false);
  }

  function Levels(series: seq<PerformanceRow>): seq<real> {
    seq(|series|, i requires 0 <= i < |series| => series[i].indexPrice)
  }

  function DailyReturns(series: seq<PerformanceRow>): seq<Pct> {
    seq(|series|, i requires 0 <= i < |series| => series[i].dailyReturn)
  }

  /** The returns carry the whole series: while no level before the last is
      zero, compounding them from the first level gives back every level. */
  lemma ChainCompounds(series: seq<PerformanceRow>)
    requires ReturnsChain(series) && series != []
    requires forall i :: 0 <= i < |series| - 1 ==> series[i].indexPrice != 0.0
    ensures Compound(series[0].indexPrice, DailyReturns(series)[1..]) == Levels(series)
  {
    var ps := Levels(series);
    CompoundInvertsReturns(ps);
    var rs := Returns(ps);
    forall i | 0 <= i < |series| ensures rs[i] == DailyReturns(series)[i] {
      if i > 0 {
        assert ps[i - 1] == series[i - 1].indexPrice && ps[i] == series[i].indexPrice;
      }
    }
    assert rs == DailyReturns(series);
  }

  /** The tracked series is such a chain. */
  lemma TrackedReturnsCompound(s: State, start: Date, end: Date, f: Faults)
    ensures var series := TrackIndexPerformance(s, start, end, f).series;
            series != [] && (forall i :: 0 <= i < |series| - 1 ==> series[i].indexPrice != 0.0) ==>
              Compound(series[0].indexPrice, DailyReturns(series)[1..]) == Levels(series)
  {
    var series := TrackIndexPerformance(s, start, end, f).series;
    if series != [] && forall i :: 0 <= i < |series| - 1 ==> series[i].indexPrice != 0.0 {
      ChainCompounds(series);
    }
  }

  /** Adding a composition tuple identical to one already stored changes no
      index level and no tracked series. */
  lemma RepeatedTupleKeepsSeries(s: State, c: CompositionRow, start: Date, end: Date, f: Faults)
    requires c in s.composition
    ensures forall d :: IndexPrice(s.(composition := s.composition + [c]), d) == IndexPrice(s, d)
    ensures TrackIndexPerformance(s.(composition := s.composition + [c]), start, end, f).series
            == TrackIndexPerformance(s, start, end, f).series
  {
    DistinctAppend(s.composition, c);
  }

  /** A composition tuple that differs from every stored one in some value
      adds its own contribution to the level of its day, even when another
      version for the same (date, ticker) is already stored. */
  lemma NewVersionAddsContribution(s: State, c: CompositionRow, d: Date)
    requires c !in s.composition
    ensures IndexPrice(s.(composition := s.composition + [c]), d)
            == IndexPrice(s, d) + (if c.date == d then Contribution(c, s.prices) else 0.0)
  {
    DistinctAppend(s.composition, c);
    var t := Distinct(s.composition);
    assert (t + [c])[..|t|] == t;
  }

  /** `track_index_performance` against a composition table created by
      `_create_tables`: the query names a column the table lacks, so every
      call returns an empty series and writes nothing. */
  function TrackIndexPerformanceAsWritten(s: State, start: Date, end: Date, f: Faults): (t: Tracked)
    ensures t.series == [] && t.state == s
  {
    TrackIndexPerformance(s, start, end, QueryFaultAsWritten(f))
  }

  /** Counterexample: one constituent with a stored price on its day. With
      the column present the day is tracked; as written the series is
      empty. */
  lemma MissingColumnHidesSeries(s: State, c: CompositionRow, p: PriceRow)
    requires s.composition == [c] && s.prices == [p] && Joins(c, p)
    ensures |TrackIndexPerformance(s, c.date, c.date, NoFaults).series| == 1
    ensures TrackIndexPerformanceAsWritten(s, c.date, c.date, NoFaults).series == []
  {
    assert Distinct(s.composition) == [c];
    assert HasJoin(Distinct(s.composition), s.prices, c.date) by {
      assert c in Distinct(s.composition) && p in s.prices;
    }
    var series := TrackIndexPerformance(s, c.date, c.date, NoFaults).series;
    assert forall i :: 0 <= i < |series| ==> series[i].date == c.date;
  }
}

=== FILE: selection.dfy ===
/** Constituent selection and equal weighting: `construct_equal_weighted_index`
    of market_env/src/index_construction.py. The day's prices are joined to
    the ticker details, rows without a market cap are dropped, the rest are
    ordered by market cap (largest first), the first `top_n` are kept and each
    kept row gets the weight 1/N. */
module Selection {
  import opened Common
  import opened Store

  /** One row of the selection query: (market_cap, ticker, close_price). */
  datatype Candidate = Candidate(marketCap: real, ticker: Ticker, closePrice: real)

  /** `c` is a row the join can produce for day `d`: a stored price of that
      day for a ticker whose market cap is known. */
  ghost predicate IsEligible(prices: seq<PriceRow>, tickers: map<Ticker, TickerRow>, d: Date, c: Candidate) {
    && c.ticker in tickers
    && tickers[c.ticker].marketCap == Some(c.marketCap)
    && exists p :: p in prices && p.ticker == c.ticker && p.date == d && p.close == c.closePrice
  }

  /** The joined rows, one per price row of day `d` whose ticker has a known
      market cap, in price-table order. */
  function Eligible(prices: seq<PriceRow>, tickers: map<Ticker, TickerRow>, d: Date): (r: seq<Candidate>)
    ensures |r| <= |prices|
    ensures forall c :: c in r <==> IsEligible(prices, tickers, d, c)
  {
    if prices == [] then []
    else
      var p := prices[0];
      var rest := Eligible(prices[1..], tickers, d);
      assert forall q :: q in prices <==> q == p || q in prices[1..] by {
        assert prices == [p] + prices[1..];
      }
      if p.date == d && p.ticker in tickers && tickers[p.ticker].marketCap.Some? then
        [Candidate(tickers[p.ticker].marketCap.value, p.ticker, p.close)] + rest
      else rest
  }

  /** The positions of the price rows that the join turns into candidate
      `c` on day `d`. */
  function JoinRows(prices: seq<PriceRow>, tickers: map<Ticker, TickerRow>, d: Date, c: Candidate): set<int> {
    set i | 0 <= i < |prices| && prices[i].date == d && prices[i].ticker == c.ticker
                              && prices[i].close == c.closePrice
                              && c.ticker in tickers && tickers[c.ticker].marketCap == Some(c.marketCap)
  }

  /** The join of a price table with one more row: the join of the shorter
      table, followed by the new row's candidate when it has one. */
  lemma {:induction false} EligibleSnoc(prices: seq<PriceRow>, tickers: map<Ticker, TickerRow>, d: Date)
    requires prices != []
    ensures var n := |prices| - 1;
            var p := prices[n];
            Eligible(prices, tickers, d)
            == Eligible(prices[..n], tickers, d)
               + (if p.date == d && p.ticker in tickers && tickers[p.ticker].marketCap.Some?
                  then [Candidate(tickers[p.ticker].marketCap.value, p.ticker, p.close)] else [])
  {
    var n := |prices| - 1;
    if n == 0 {
      assert prices[..n] == [] && prices[1..] == [];
    } else {
      EligibleSnoc(prices[1..], tickers, d);
      assert prices[1..][..n - 1] == prices[..n][1..];
      assert prices[..n][0] == prices[0];
      assert prices[1..][n - 1] == prices[n];
    }
  }

  lemma JoinRowsSnoc(prices: seq<PriceRow>, tickers: map<Ticker, TickerRow>, d: Date, c: Candidate)
    requires prices != []
    ensures var n := |prices| - 1;
            var p := prices[n];
            JoinRows(prices, tickers, d, c)
            == JoinRows(prices[..n], tickers, d, c)
               + (if p.date == d && p.ticker == c.ticker && p.close == c.closePrice
                     && c.ticker in tickers && tickers[c.ticker].marketCap == Some(c.marketCap)
                  then {n} else {})
  {
    var n := |prices| - 1;
    forall i | 0 <= i < n ensures prices[..n][i] == prices[i] {
    }
  }

  /** The join yields a candidate once per price row that produces it: two
      bars of one ticker on one day with the same close give two equal
      rows, and so count twice in N. */
  lemma {:induction false} EligibleCount(prices: seq<PriceRow>, tickers: map<Ticker, TickerRow>, d: Date, c: Candidate)
    ensures multiset(Eligible(prices, tickers, d))[c] == |JoinRows(prices, tickers, d, c)|
  {
    if prices == [] {
      assert JoinRows(prices, tickers, d, c) == {};
    } else {
      var n := |prices| - 1;
      var p := prices[n];
      EligibleCount(prices[..n], tickers, d, c);
      EligibleSnoc(prices, tickers, d);
      JoinRowsSnoc(prices, tickers, d, c);
      if p.date == d && p.ticker == c.ticker && p.close == c.closePrice
         && c.ticker in tickers && tickers[c.ticker].marketCap == Some(c.marketCap) {
        AddFresh(JoinRows(prices[..n], tickers, d, c), n);
      }
    }
  }

  predicate ByCapDescending(cs: seq<Candidate>) {
    forall i, j :: 0 <= i < j < |cs| ==> cs[i].marketCap >= cs[j].marketCap
  }

  predicate CapAtMost(cs: seq<Candidate>, m: real) {
    forall i :: 0 <= i < |cs| ==> cs[i].marketCap <= m
  }

  lemma ConsByCap(x: Candidate, t: seq<Candidate>)
    requires ByCapDescending(t) && CapAtMost(t, x.marketCap)
    ensures ByCapDescending([x] + t)
  {
  }

  /** Inserts `c` ahead of every row whose market cap it does not exceed
      strictly, so rows with equal caps keep their join order. */
  function InsertByCap(cs: seq<Candidate>, c: Candidate): (r: seq<Candidate>)
    requires ByCapDescending(cs)
    ensures ByCapDescending(r)
    ensures multiset(r) == multiset(cs) + multiset{c}
    ensures forall i :: 0 <= i < |r| ==> r[i] == c || r[i] in cs
  {
    if cs == [] then [c]
    else if c.marketCap >= cs[0].marketCap then
      ConsByCap(c, cs);
      [c] + cs
    else
      var tail := InsertByCap(cs[1..], c);
      assert cs == [cs[0]] + cs[1..];
      assert CapAtMost(tail, cs[0].marketCap) by {
        forall i | 0 <= i < |tail| ensures tail[i].marketCap <= cs[0].marketCap {
          if tail[i] != c {
            var j :| 0 <= j < |cs[1..]| && cs[1..][j] == tail[i];
            assert cs[j + 1] == tail[i];
          }
        }
      }
      ConsByCap(cs[0], tail);
      var r := [cs[0]] + tail;
      assert forall i :: 0 < i < |r| ==> r[i] == tail[i - 1];
      r
  }

  /** `ORDER BY market_cap DESC`. Ties keep the join order. */
  function SortByCap(cs: seq<Candidate>): (r: seq<Candidate>)
    ensures ByCapDescending(r)
    ensures multiset(r) == multiset(cs)
  {
    if cs == [] then []
    else
      assert cs == [cs[0]] + cs[1..];
      InsertByCap(SortByCap(cs[1..]), cs[0])
  }

  /** SQLite's `LIMIT n`: the first `n` rows, every row for a negative `n`. */
  function Limit<T>(rows: seq<T>, n: int): (r: seq<T>)
    ensures r <= rows
    ensures n >= 0 ==> |r| == if n < |rows| then n else |rows|
    ensures n < 0 ==> |r| == |rows|
  {
    if n < 0 || n >= |rows| then rows else rows[..n]
  }

  /** In a list ordered by market cap, nothing outside a prefix has a larger
      cap than a row inside it. */
  lemma PrefixHoldsLargest(cands: seq<Candidate>, sorted: seq<Candidate>, sel: seq<Candidate>)
    requires ByCapDescending(sorted) && multiset(sorted) == multiset(cands) && sel <= sorted
    ensures multiset(sel) <= multiset(cands)
    ensures forall x, y :: x in multiset(cands) - multiset(sel) && y in sel ==> x.marketCap <= y.marketCap
  {
    var k := |sel|;
    assert sorted == sel + sorted[k..];
    assert multiset(cands) - multiset(sel) == multiset(sorted[k..]);
    forall x, y | x in sorted[k..] && y in sel ensures x.marketCap <= y.marketCap {
      var j :| k <= j < |sorted| && sorted[j] == x;
      var i :| 0 <= i < k && sorted[i] == y;
    }
  }

  /** A prefix of a list ordered by market cap is ordered too. */
  lemma PrefixByCap(sorted: seq<Candidate>, sel: seq<Candidate>)
    requires ByCapDescending(sorted) && sel <= sorted
    ensures ByCapDescending(sel)
  {
    assert forall i :: 0 <= i < |sel| ==> sel[i] == sorted[i];
  }

  /** What taking the first `topN` rows of the ordered candidates gives. */
  lemma LimitOfSorted(cands: seq<Candidate>, sorted: seq<Candidate>, topN: int)
    requires ByCapDescending(sorted) && multiset(sorted) == multiset(cands)
    ensures var sel := Limit(sorted, topN);
            && ByCapDescending(sel)
            && multiset(sel) <= multiset(cands)
            && (topN >= 0 ==> |sel| == if topN < |cands| then topN else |cands|)
            && (topN < 0 ==> |sel| == |cands|)
            && (forall x, y :: x in multiset(cands) - multiset(sel) && y in sel ==> x.marketCap <= y.marketCap)
            && (|sel| == |cands| ==> multiset(sel) == multiset(cands))
  {
    var sel := Limit(sorted, topN);
    assert |sorted| == |cands| by {
      assert |multiset(sorted)| == |sorted| && |multiset(cands)| == |cands|;
    }
    PrefixByCap(sorted, sel);
    PrefixHoldsLargest(cands, sorted, sel);
    if |sel| == |cands| {
      assert sel == sorted;
    }
  }

  /** The first `topN` candidates by market cap. The selection is ordered,
      drawn from the candidates, as long as the limit allows, and no
      candidate left out has a larger market cap than one kept. */
  function SelectTop(cands: seq<Candidate>, topN: int): (sel: seq<Candidate>)
    ensures ByCapDescending(sel)
    ensures multiset(sel) <= multiset(cands)
    ensures topN >= 0 ==> |sel| == if topN < |cands| then topN else |cands|
    ensures topN < 0 ==> |sel| == |cands|
    ensures forall x, y :: x in multiset(cands) - multiset(sel) && y in sel ==> x.marketCap <= y.marketCap
    ensures |sel| == |cands| ==> multiset(sel) == multiset(cands)
  {
    var sorted := SortByCap(cands);
    LimitOfSorted(cands, sorted, topN);
    Limit(sorted, topN)
  }

  function Weights(rows: seq<CompositionRow>): seq<real> {
    seq(|rows|, i requires 0 <= i < |rows| => rows[i].weight)
  }

  /** The composition rows of day `d` for a selection: every row carries the
      selected values and the weight 1/N. */
  function EqualWeight(sel: seq<Candidate>, d: Date): (rows: seq<CompositionRow>)
    ensures |rows| == |sel|
    ensures forall i :: 0 <= i < |rows| ==>
              && rows[i].date == d
              && AsCandidate(rows[i]) == sel[i]
              && rows[i].weight == 1.0 / |sel| as real
    ensures rows != [] ==> Sum(Weights(rows)) == 1.0
  {
    if sel == [] then []
    else
      var w := 1.0 / |sel| as real;
      var rows := seq(|sel|, i requires 0 <= i < |sel| =>
                        CompositionRow(d, sel[i].ticker, sel[i].closePrice, w, sel[i].marketCap));
      SumConstant(Weights(rows), w);
      rows
  }

  function AsCandidate(r: CompositionRow): Candidate {
    Candidate(r.marketCap, r.ticker, r.closePrice)
  }

  function Candidates(rows: seq<CompositionRow>): seq<Candidate> {
    seq(|rows|, i requires 0 <= i < |rows| => AsCandidate(rows[i]))
  }

  /** An eligible row the selection leaves out has no larger market cap
      than the smallest row kept, and rows are left out only when the limit
      is reached. */
  lemma EligibleOutranked(prices: seq<PriceRow>, tickers: map<Ticker, TickerRow>, d: Date, topN: int, c: Candidate)
    requires IsEligible(prices, tickers, d, c)
    ensures var sel := SelectTop(Eligible(prices, tickers, d), topN);
            && (c !in sel && sel != [] ==> c.marketCap <= sel[|sel| - 1].marketCap)
            && (topN < 0 || |sel| < topN ==> c in sel)
  {
    var cands := Eligible(prices, tickers, d);
    var sel := SelectTop(cands, topN);
    assert c in multiset(cands);
    if c !in sel && sel != [] {
      assert c in multiset(cands) - multiset(sel);
      assert sel[|sel| - 1] in sel;
    }
  }

  /** Every selected row is eligible. */
  lemma SelectedAreEligible(prices: seq<PriceRow>, tickers: map<Ticker, TickerRow>, d: Date, topN: int, c: Candidate)
    ensures c in SelectTop(Eligible(prices, tickers, d), topN) ==> IsEligible(prices, tickers, d, c)
  {
    if c in SelectTop(Eligible(prices, tickers, d), topN) {
      assert c in multiset(SelectTop(Eligible(prices, tickers, d), topN));
    }
  }

  /** Weighting an ordered selection keeps its rows, its order and their
      values. */
  lemma WeightedSelection(sel: seq<Candidate>, d: Date)
    requires ByCapDescending(sel)
    ensures var rows := EqualWeight(sel, d);
            && Candidates(rows) == sel
            && forall i, j :: 0 <= i < j < |rows| ==> rows[i].marketCap >= rows[j].marketCap
  {
    var rows := EqualWeight(sel, d);
    assert forall i :: 0 <= i < |rows| ==> rows[i].marketCap == sel[i].marketCap;
    assert Candidates(rows) == sel;
  }

  /** What the price fetch before the query produced: a payload, nothing
      (`None` or an empty payload), or an exception. */
  datatype FetchOutcome = Fetched(batch: PriceBatch) | NothingFetched | FetchRaised

  datatype Built = Built(state: State, rows: seq<CompositionRow>)

  /** The price fetch and upsert that precede the query. An exception from
      either is caught by the builder, which then returns an empty result. */
  function FetchPrices(s: State, fetch: FetchOutcome, priceFault: bool): (r: Result<State>)
    ensures r.Ok? ==> r.value.tickers == s.tickers && r.value.composition == s.composition
                      && r.value.performance == s.performance && r.value.changes == s.changes
    ensures r.Ok? && Valid(s) ==> Valid(r.value)
    ensures fetch.NothingFetched? ==> r == Ok(s)
    ensures fetch.FetchRaised? ==> r == Raised(FetchError)
    ensures fetch.Fetched? ==>
              var w := InsertStockPrices(s, fetch.batch, priceFault);
              && (r.Raised? <==> w.status.Threw?)
              && (r.Ok? ==> r.value == w.state)
  {
    match fetch
    case FetchRaised => Raised(FetchError)
    case NothingFetched => Ok(s)
    case Fetched(batch) =>
      var w := InsertStockPrices(s, batch, priceFault);
      if w.status.Threw? then Raised(w.status.error) else Ok(w.state)
  }

  /** The shape of a builder result: at most `topN` rows, all of day `d`, in
      non-increasing market-cap order, each weighted 1/N, weights summing
      to 1. */
  predicate WeightedIndex(rows: seq<CompositionRow>, d: Date, topN: int) {
    && (topN >= 0 ==> |rows| <= topN)
    && (forall i :: 0 <= i < |rows| ==> rows[i].date == d && rows[i].weight == 1.0 / |rows| as real)
    && (forall i, j :: 0 <= i < j < |rows| ==> rows[i].marketCap >= rows[j].marketCap)
    && (rows != [] ==> Sum(Weights(rows)) == 1.0)
  }

  /** The rows the builder derives from the stored data for day `d`: the
      selection weighted 1/N, or none when the query meets a store error
      (an empty frame). */
  function IndexRows(prices: seq<PriceRow>, tickers: map<Ticker, TickerRow>, d: Date, topN: int, queryFault: bool): (rows: seq<CompositionRow>)
    ensures WeightedIndex(rows, d, topN)
    ensures rows != [] ==> !queryFault && Candidates(rows) == SelectTop(Eligible(prices, tickers, d), topN)
    ensures !queryFault && topN != 0 ==> (rows == [] <==> Eligible(prices, tickers, d) == [])
  {
    if queryFault then []
    else
      var cands := Eligible(prices, tickers, d);
      var sel := SelectTop(cands, topN);
      WeightedSelection(sel, d);
      assert topN != 0 && cands != [] ==> sel != [];
      EqualWeight(sel, d)
  }

  /** `construct_equal_weighted_index(date, top_n)`. The fetched prices, if
      any, are upserted first; an exception from the fetch or the upsert ends
      the call with an empty result. An empty selection writes nothing;
      otherwise the weighted rows are appended to the composition log and
      returned: the written rows are exactly the returned rows. */
  function ConstructEqualWeightedIndex(s: State, d: Date, topN: int, fetch: FetchOutcome, f: Faults): (b: Built)
    ensures b.state.tickers == s.tickers
    ensures b.state.performance == s.performance && b.state.changes == s.changes
    ensures FetchPrices(s, fetch, f.priceWrite).Raised? ==> b == Built(s, [])
    ensures FetchPrices(s, fetch, f.priceWrite).Ok? ==>
              b.state.prices == FetchPrices(s, fetch, f.priceWrite).value.prices
    ensures Valid(s) ==> Valid(b.state)
    ensures b.rows == [] ==> b.state.composition == s.composition
    ensures b.rows != [] ==>
              if f.indexWrite then b.state.composition == s.composition
              else AppendedTo(s.composition, b.state.composition, b.rows)
  {
    match FetchPrices(s, fetch, f.priceWrite)
    case Raised(_) => Built(s, [])
    case Ok(s1) =>
      var rows := IndexRows(s1.prices, s1.tickers, d, topN, f.query);
      if rows == [] then Built(s1, [])
      else Built(AppendComposition(s1, rows, f.indexWrite).state, rows)
  }

  /** The returned rows: at most `top_n`, all of the query date, in
      non-increasing market-cap order, each weighted 1/N, weights summing
      to 1. */
  lemma ConstructedRowsWeighted(s: State, d: Date, topN: int, fetch: FetchOutcome, f: Faults)
    ensures WeightedIndex(ConstructEqualWeightedIndex(s, d, topN, fetch, f).rows, d, topN)
  {
    var fetched := FetchPrices(s, fetch, f.priceWrite);
    var result := ConstructEqualWeightedIndex(s, d, topN, fetch, f).rows;
    if fetched.Ok? {
      var s1 := fetched.value;
      var rows := IndexRows(s1.prices, s1.tickers, d, topN, f.query);
      assert result == rows;
    } else {
      assert result == [];
      assert WeightedIndex([], d, topN);
    }
  }

  /** A non-empty result is the top selection over the data stored after the
      fetch, and comes from a query that met no store error. */
  lemma ConstructedRowsSelected(s: State, d: Date, topN: int, fetch: FetchOutcome, f: Faults)
    ensures var b := ConstructEqualWeightedIndex(s, d, topN, fetch, f);
            b.rows != [] ==>
              && !f.query
              && Candidates(b.rows) == SelectTop(Eligible(b.state.prices, b.state.tickers, d), topN)
  {
  }

  /** When the fetch and its upsert succeed and the query works, the result
      is empty exactly when no price stored after the fetch, on the day, has
      a ticker with a known market cap. */
  lemma ConstructedEmptyIffNoneEligible(s: State, d: Date, topN: int, fetch: FetchOutcome, f: Faults)
    requires !f.query && topN != 0
    ensures var fetched := FetchPrices(s, fetch, f.priceWrite);
            fetched.Ok? ==>
              (ConstructEqualWeightedIndex(s, d, topN, fetch, f).rows == []
               <==> Eligible(fetched.value.prices, fetched.value.tickers, d) == [])
  {
  }
}

=== FILE: store.dfy ===
/** The store of market_env/src/save_db.py as an abstract state: prices are
    an upsert table keyed by (ticker, timestamp), ticker details an upsert
    table keyed by ticker, and index composition, index performance and
    composition changes are append-only logs. Every write either commits its
    whole batch or, when the store reports an error, is rolled back and
    leaves the state exactly as it was. */
module Store {
  import opened Common

  // ---------------------------------------------------------------------
  // Rows

  datatype PriceKey = PriceKey(ticker: Ticker, timestamp: int)

  /** One row of `stock_prices`. */
  datatype PriceRow = PriceRow(
    ticker: Ticker,
    timestamp: int,
    date: Date,
    open: real,
    high: real,
    low: real,
    close: real,
    volume: real,
    transactions: int,
    volumeWeightedAvg: real,
    isOtc: bool,
    isAdjusted: bool)
  {
    function Key(): PriceKey {
      PriceKey(ticker, timestamp)
    }
  }

  /** Descriptive, non-nested columns of `ticker_details`; each is NULL when
      the payload lacks its key. */
  datatype TickerInfo = TickerInfo(
    active: Option<bool>,
    name: Option<string>,
    market: Option<string>,
    locale: Option<string>,
    primaryExchange: Option<string>,
    securityType: Option<string>,
    currencyName: Option<string>,
    cik: Option<string>,
    description: Option<string>,
    homepageUrl: Option<string>,
    listDate: Option<string>,
    phoneNumber: Option<string>,
    totalEmployees: Option<int>,
    sicCode: Option<string>,
    sicDescription: Option<string>,
    tickerRoot: Option<string>,
    tickerSuffix: Option<string>,
    weightedSharesOutstanding: Option<real>)

  datatype Address = Address(
    address1: Option<string>,
    address2: Option<string>,
    city: Option<string>,
    state: Option<string>,
    postalCode: Option<string>)

  datatype Branding = Branding(iconUrl: Option<string>, logoUrl: Option<string>)

  const NoAddress := Address(None, None, None, None, None)
  const NoBranding := Branding(None, None)

  /** One row of `ticker_details`. */
  datatype TickerRow = TickerRow(
    ticker: Ticker,
    marketCap: Option<real>,
    info: TickerInfo,
    address: Address,
    branding: Branding)

  /** One row of `index_composition`, shaped as the index builder produces it. */
  datatype CompositionRow = CompositionRow(
    date: Date,
    ticker: Ticker,
    closePrice: real,
    weight: real,
    marketCap: real)

  /** A percentage change as pandas computes it in floating point: a finite
      value, or an infinity after a division by a zero previous level. */
  datatype Pct = Finite(value: real) | PosInf | NegInf

  /** One row of `index_performance`. */
  datatype PerformanceRow = PerformanceRow(date: Date, indexPrice: real, dailyReturn: Pct)

  /** One row of `index_composition_changes`. The constituent list is kept
      as the multiset of tickers it concatenates. */
  datatype ChangeRow = ChangeRow(
    date: Date,
    symbols: multiset<Ticker>,
    prevDate: Option<Date>,
    prevSymbols: Option<multiset<Ticker>>)

  // ---------------------------------------------------------------------
  // State

  /** The five tables. `prices` lists the rows of `stock_prices` in table
      order; the other logs list rows in insertion order. */
  datatype State = State(
    prices: seq<PriceRow>,
    tickers: map<Ticker, TickerRow>,
    composition: seq<CompositionRow>,
    performance: seq<PerformanceRow>,
    changes: seq<ChangeRow>)

  /** The primary key of `stock_prices` holds: no two rows share a key. */
  predicate UniqueKeys(t: seq<PriceRow>) {
    forall i, j :: 0 <= i < j < |t| ==> t[i].Key() != t[j].Key()
  }

  predicate Valid(s: State) {
    UniqueKeys(s.prices)
  }

  /** Which store errors the environment raises during one operation. */
  datatype Faults = Faults(priceWrite: bool, query: bool, indexWrite: bool)

  const NoFaults := Faults(false, false, false)

  /** How a write ended: committed, rolled back after a store error, or
      left by a Python exception raised before anything was executed. */
  datatype Status = Committed | RolledBack | Threw(error: PyError)

  datatype Written = Written(state: State, status: Status)

  // ---------------------------------------------------------------------
  // The price table as a map

  /** The table read as a map from key to row; when keys repeat, the later
      row wins. */
  function PriceView(t: seq<PriceRow>): (m: map<PriceKey, PriceRow>)
  {
    if t == [] then map[]
    else PriceView(t[..|t| - 1])[t[|t| - 1].Key() := t[|t| - 1]]
  }

  /** A key is in the view iff some row carries it. */
  lemma {:induction false} PriceViewKeys(t: seq<PriceRow>, k: PriceKey)
    ensures k in PriceView(t) <==> exists i :: 0 <= i < |t| && t[i].Key() == k
  {
    if t != [] {
      var p := t[..|t| - 1];
      PriceViewKeys(p, k);
      if exists i :: 0 <= i < |p| && p[i].Key() == k {
        var i :| 0 <= i < |p| && p[i].Key() == k;
        assert t[i].Key() == k;
      }
      if exists i :: 0 <= i < |t| && t[i].Key() == k {
        var i :| 0 <= i < |t| && t[i].Key() == k;
        if i < |t| - 1 {
          assert p[i].Key() == k;
        }
      }
    }
  }

  /** A key maps to the last row that carries it. */
  lemma {:induction false} PriceViewLastWins(t: seq<PriceRow>, i: int)
    requires 0 <= i < |t|
    requires forall j :: i < j < |t| ==> t[j].Key() != t[i].Key()
    ensures t[i].Key() in PriceView(t) && PriceView(t)[t[i].Key()] == t[i]
  {
    if i < |t| - 1 {
      var p := t[..|t| - 1];
      assert p[i] == t[i];
      PriceViewLastWins(p, i);
    }
  }

  /** With unique keys, every row is what the view holds for its key. */
  lemma PriceViewOfUnique(t: seq<PriceRow>, i: int)
    requires UniqueKeys(t)
    requires 0 <= i < |t|
    ensures t[i].Key() in PriceView(t) && PriceView(t)[t[i].Key()] == t[i]
  {
    PriceViewLastWins(t, i);
  }

  /** The rows of `t` whose key is not `k`, in order. */
  function WithoutKey(t: seq<PriceRow>, k: PriceKey): (r: seq<PriceRow>)
    ensures forall i :: 0 <= i < |r| ==> r[i] in t && r[i].Key() != k
  {
    if t == [] then []
    else
      var p := t[..|t| - 1];
      var x := t[|t| - 1];
      var r := WithoutKey(p, k);
      assert forall y :: y in p ==> y in t;
      if x.Key() == k then r else r + [x]
  }

  lemma {:induction false} WithoutKeyView(t: seq<PriceRow>, k: PriceKey)
    ensures PriceView(WithoutKey(t, k)) == PriceView(t) - {k}
  {
    if t != [] {
      var p := t[..|t| - 1];
      var x := t[|t| - 1];
      var r := WithoutKey(p, k);
      WithoutKeyView(p, k);
      if x.Key() == k {
        assert PriceView(t) == PriceView(p)[k := x];
        assert PriceView(p)[k := x] - {k} == PriceView(p) - {k};
      } else {
        assert (r + [x])[..|r|] == r;
        assert PriceView(r + [x]) == PriceView(r)[x.Key() := x];
        MapUpdateRemove(PriceView(p), k, x.Key(), x);
      }
    }
  }

  /** Updating one key and removing another commute. */
  lemma MapUpdateRemove<K, V>(m: map<K, V>, k: K, j: K, v: V)
    requires j != k
    ensures (m - {k})[j := v] == m[j := v] - {k}
  {
  }

  lemma {:induction false} WithoutKeyUnique(t: seq<PriceRow>, k: PriceKey)
    requires UniqueKeys(t)
    ensures UniqueKeys(WithoutKey(t, k))
  {
    if t != [] {
      var p := t[..|t| - 1];
      var x := t[|t| - 1];
      var r := WithoutKey(p, k);
      WithoutKeyUnique(p, k);
      if x.Key() != k {
        forall i | 0 <= i < |r| ensures r[i].Key() != x.Key() {
          var j :| 0 <= j < |p| && p[j] == r[i];
          assert t[j] == r[i];
        }
      }
    }
  }

  /** `INSERT OR REPLACE` of one row: the row holding the same key is
      deleted and the new row is inserted at the end of the table. */
  function Replace(t: seq<PriceRow>, x: PriceRow): (r: seq<PriceRow>)
    ensures PriceView(r) == PriceView(t)[x.Key() := x]
    ensures UniqueKeys(t) ==> UniqueKeys(r)
  {
    var w := WithoutKey(t, x.Key());
    WithoutKeyView(t, x.Key());
    if UniqueKeys(t) then WithoutKeyUnique(t, x.Key()); Append(w, x) else Append(w, x)
  }

  function Append(w: seq<PriceRow>, x: PriceRow): (r: seq<PriceRow>)
    ensures PriceView(r) == PriceView(w)[x.Key() := x]
    ensures UniqueKeys(w) && x.Key() !in PriceView(w) ==> UniqueKeys(r)
  {
    assert (w + [x])[..|w|] == w;
    assert forall i :: 0 <= i < |w| ==> w[i].Key() in PriceView(w) by {
      forall i | 0 <= i < |w| ensures w[i].Key() in PriceView(w) {
        PriceViewKeys(w, w[i].Key());
      }
    }
    w + [x]
  }

  /** `executemany` of `INSERT OR REPLACE` over a batch, row by row. */
  function UpsertAll(t: seq<PriceRow>, rows: seq<PriceRow>): (r: seq<PriceRow>)
    ensures PriceView(r) == PriceView(t) + PriceView(rows)
    ensures UniqueKeys(t) ==> UniqueKeys(r)
  {
    if rows == [] then t
    else
      var u := UpsertAll(t, rows[..|rows| - 1]);
      var x := rows[|rows| - 1];
      assert PriceView(t) + PriceView(rows) == (PriceView(t) + PriceView(rows[..|rows| - 1]))[x.Key() := x];
      Replace(u, x)
  }

  /** After an upsert each key of the batch holds the last batch row with
      that key, and every other key keeps its previous row or stays absent. */
  lemma UpsertLastRowWins(t: seq<PriceRow>, rows: seq<PriceRow>, k: PriceKey)
    ensures forall i :: 0 <= i < |rows| && rows[i].Key() == k
                        && (forall j :: i < j < |rows| ==> rows[j].Key() != k)
              ==> k in PriceView(UpsertAll(t, rows)) && PriceView(UpsertAll(t, rows))[k] == rows[i]
    ensures (forall i :: 0 <= i < |rows| ==> rows[i].Key() != k) ==>
              (k in PriceView(UpsertAll(t, rows)) <==> k in PriceView(t))
              && (k in PriceView(t) ==> PriceView(UpsertAll(t, rows))[k] == PriceView(t)[k])
  {
    forall i | 0 <= i < |rows| && rows[i].Key() == k
               && (forall j :: i < j < |rows| ==> rows[j].Key() != k)
      ensures k in PriceView(UpsertAll(t, rows)) && PriceView(UpsertAll(t, rows))[k] == rows[i]
    {
      PriceViewLastWins(rows, i);
    }
    PriceViewKeys(rows, k);
  }

  // ---------------------------------------------------------------------
  // insert_stock_prices

  /** One bar of the grouped-daily payload, under the keys T (ticker),
      t (epoch milliseconds), o, h, l, c, v, n, vw and the optional otc. */
  datatype Bar = Bar(
    ticker: Ticker,
    timestampMs: Option<int>,
    open: real,
    high: real,
    low: real,
    close: real,
    volume: real,
    transactions: int,
    volumeWeightedAvg: real,
    otc: Option<bool>)

  /** The payload handed to `insert_stock_prices`: its `results` list and its
      batch-level `adjusted` flag, each possibly absent. */
  datatype PriceBatch = PriceBatch(results: Option<seq<Bar>>, adjusted: Option<bool>) {
    function Bars(): seq<Bar> {
      results.GetOr([])
    }
  }

  /** `p` is the row stored for bar `b` of a batch whose adjusted flag is
      `adjusted`: same values, the bar's UTC calendar day as its date, and
      false for a missing otc flag. */
  predicate StoredBar(b: Bar, adjusted: bool, p: PriceRow) {
    && b.timestampMs == Some(p.timestamp)
    && p.ticker == b.ticker
    && p.date * MillisPerDay <= p.timestamp < p.date * MillisPerDay + MillisPerDay
    && p.open == b.open && p.high == b.high && p.low == b.low && p.close == b.close
    && p.volume == b.volume && p.transactions == b.transactions
    && p.volumeWeightedAvg == b.volumeWeightedAvg
    && p.isOtc == (b.otc == Some(true))
    && p.isAdjusted == adjusted
  }

  /** A bar whose timestamp `utcfromtimestamp` turns into a date: present,
      and on a day of years 1 to 9999. */
  predicate Dated(b: Bar) {
    b.timestampMs.Some? && FirstDay <= UtcDay(b.timestampMs.value) <= LastDay
  }

  /** The exception an undated bar raises: `None / 1000` is a TypeError,
      a day outside years 1 to 9999 a ValueError. */
  function DateError(b: Bar): PyError {
    if b.timestampMs.None? then TypeError else ValueError
  }

  /** Bar `i` is the first bar that is not dated. */
  predicate FirstUndated(bars: seq<Bar>, i: int) {
    0 <= i < |bars| && !Dated(bars[i]) && forall j :: 0 <= j < i ==> Dated(bars[j])
  }

  /** The rows built from a batch, or the exception raised by its first
      undated bar. */
  function PriceRows(bars: seq<Bar>, adjusted: bool): (r: Result<seq<PriceRow>>)
    ensures r.Raised? <==> exists i :: 0 <= i < |bars| && !Dated(bars[i])
    ensures r.Raised? ==> exists i :: FirstUndated(bars, i) && r.error == DateError(bars[i])
    ensures r.Ok? ==> |r.value| == |bars|
    ensures r.Ok? ==> forall i :: 0 <= i < |bars| ==> StoredBar(bars[i], adjusted, r.value[i])
  {
    if bars == [] then Ok([])
    else
      var b := bars[0];
      if !Dated(b) then
        assert FirstUndated(bars, 0);
        Raised(DateError(b))
      else
        var ms := b.timestampMs.value;
        var row := PriceRow(b.ticker, ms, UtcDay(ms), b.open, b.high, b.low, b.close,
                            b.volume, b.transactions, b.volumeWeightedAvg,
                            b.otc.GetOr(false), adjusted);
        match PriceRows(bars[1..], adjusted)
        case Raised(e) =>
          assert exists i :: FirstUndated(bars, i) && e == DateError(bars[i]) by {
            var k :| FirstUndated(bars[1..], k) && e == DateError(bars[1..][k]);
            assert bars[k + 1] == bars[1..][k];
            assert forall j :: 1 <= j <= k ==> bars[j] == bars[1..][j - 1];
            assert FirstUndated(bars, k + 1);
          }
          Raised(e)
        case Ok(rest) =>
          assert forall i :: 1 <= i < |bars| ==> bars[i] == bars[1..][i - 1];
          Ok([row] + rest)
  }

  /** The first instant of year 10000 ends a batch with a ValueError, while
      the millisecond before it is stored on 9999-12-31. */
  lemma YearTenThousandRaises(b: Bar, adjusted: bool)
    requires b.timestampMs == Some(253_402_300_800_000)
    ensures PriceRows([b], adjusted) == Raised(ValueError)
    ensures var last := b.(timestampMs := Some(253_402_300_799_999));
            PriceRows([last], adjusted).Ok? && PriceRows([last], adjusted).value[0].date == LastDay
  {
    assert UtcDay(253_402_300_800_000) == LastDay + 1;
    assert UtcDay(253_402_300_799_999) == LastDay;
  }

  /** `insert_stock_prices`: upsert every bar of the batch by (ticker,
      timestamp). A bar without a timestamp, or with one outside years 1 to
      9999, raises before anything is written; a store error rolls the
      batch back. */
  function InsertStockPrices(s: State, batch: PriceBatch, fault: bool): (w: Written)
    ensures w.status.Threw? <==> exists i :: 0 <= i < |batch.Bars()| && !Dated(batch.Bars()[i])
    ensures w.status.Threw? ==>
              exists i :: FirstUndated(batch.Bars(), i) && w.status.error == DateError(batch.Bars()[i])
    ensures w.status.RolledBack? <==> fault && !w.status.Threw?
    ensures !w.status.Committed? ==> w.state == s
    ensures w.status.Committed? ==>
              var rows := PriceRows(batch.Bars(), batch.adjusted.GetOr(false)).value;
              && PriceView(w.state.prices) == PriceView(s.prices) + PriceView(rows)
              && w.state == s.(prices := w.state.prices)
    ensures Valid(s) ==> Valid(w.state)
  {
    match PriceRows(batch.Bars(), batch.adjusted.GetOr(false))
    case Raised(e) => Written(s, Threw(e))
    case Ok(rows) =>
      if fault then Written(s, RolledBack)
      else Written(s.(prices := UpsertAll(s.prices, rows)), Committed)
  }

  // ---------------------------------------------------------------------
  // insert_ticker_details

  /** A nested payload value read with `payload.get(key, {}).get(field)`:
      absent, present but not an object (no `.get`), or an object. */
  datatype Nested<T> = Missing | NotObject | Object(fields: T)

  /** The ticker-details payload. Absent top-level keys are NULL. */
  datatype TickerPayload = TickerPayload(
    ticker: Ticker,
    marketCap: Option<real>,
    info: TickerInfo,
    address: Nested<Address>,
    branding: Nested<Branding>)

  /** The row built from a payload, or the AttributeError raised when
      `address` or `branding` is present but not an object. */
  function TickerRowOf(p: TickerPayload): (r: Result<TickerRow>)
    ensures r.Raised? <==> p.address.NotObject? || p.branding.NotObject?
    ensures r.Raised? ==> r.error == AttributeError
    ensures r.Ok? ==> && r.value.ticker == p.ticker
                      && r.value.marketCap == p.marketCap
                      && r.value.info == p.info
    ensures r.Ok? ==> (p.address.Missing? ==> r.value.address == NoAddress)
                      && (p.address.Object? ==> r.value.address == p.address.fields)
    ensures r.Ok? ==> (p.branding.Missing? ==> r.value.branding == NoBranding)
                      && (p.branding.Object? ==> r.value.branding == p.branding.fields)
  {
    if p.address.NotObject? || p.branding.NotObject? then Raised(AttributeError)
    else
      var address := if p.address.Object? then p.address.fields else NoAddress;
      var branding := if p.branding.Object? then p.branding.fields else NoBranding;
      Ok(TickerRow(p.ticker, p.marketCap, p.info, address, branding))
  }

  /** `insert_ticker_details`: `INSERT OR REPLACE` keyed by ticker. */
  function InsertTickerDetails(s: State, p: TickerPayload, fault: bool): (w: Written)
    ensures w.status.Threw? <==> p.address.NotObject? || p.branding.NotObject?
    ensures w.status.RolledBack? <==> fault && !w.status.Threw?
    ensures !w.status.Committed? ==> w.state == s
    ensures w.status.Committed? ==>
              && w.state.tickers.Keys == s.tickers.Keys + {p.ticker}
              && w.state.tickers[p.ticker] == TickerRowOf(p).value
              && (forall t :: t in s.tickers && t != p.ticker ==> w.state.tickers[t] == s.tickers[t])
              && w.state == s.(tickers := w.state.tickers)
  {
    match TickerRowOf(p)
    case Raised(e) => Written(s, Threw(e))
    case Ok(row) =>
      if fault then Written(s, RolledBack)
      else Written(s.(tickers := s.tickers[p.ticker := row]), Committed)
  }

  // ---------------------------------------------------------------------
  // The append-only logs

  /** `after` is `before` followed by exactly `rows`: nothing earlier is
      removed or changed. */
  predicate AppendedTo<T(==)>(before: seq<T>, after: seq<T>, rows: seq<T>) {
    && |after| == |before| + |rows|
    && after[..|before|] == before
    && after[|before|..] == rows
  }

  /** A batch insert into the composition log (the column layout the index
      builder produces). */
  function AppendComposition(s: State, rows: seq<CompositionRow>, fault: bool): (w: Written)
    ensures w.status == (if fault then RolledBack else Committed)
    ensures fault ==> w.state == s
    ensures !fault ==> AppendedTo(s.composition, w.state.composition, rows)
                       && w.state == s.(composition := w.state.composition)
  {
    if fault then Written(s, RolledBack)
    else Written(s.(composition := s.composition + rows), Committed)
  }

  /** `insert_or_update_index_performance`: a plain `INSERT` of each row. */
  function AppendPerformance(s: State, rows: seq<PerformanceRow>, fault: bool): (w: Written)
    ensures w.status == (if fault then RolledBack else Committed)
    ensures fault ==> w.state == s
    ensures !fault ==> AppendedTo(s.performance, w.state.performance, rows)
                       && w.state == s.(performance := w.state.performance)
  {
    if fault then Written(s, RolledBack)
    else Written(s.(performance := s.performance + rows), Committed)
  }

  /** `insert_or_update_index_composition_changes` with the four-column
      layout the change detector produces. */
  function AppendChanges(s: State, rows: seq<ChangeRow>, fault: bool): (w: Written)
    ensures w.status == (if fault then RolledBack else Committed)
    ensures fault ==> w.state == s
    ensures !fault ==> AppendedTo(s.changes, w.state.changes, rows)
                       && w.state == s.(changes := w.state.changes)
  {
    if fault then Written(s, RolledBack)
    else Written(s.(changes := s.changes + rows), Committed)
  }


  // ---------------------------------------------------------------------
  // The statements as written

  /** The columns `_create_tables` gives the composition table. The
      queries over it select and group by `market_cap`, which is not among
      them, so on a table created by that statement they fail with a store
      error. */
  const CompositionColumns: set<string> := {"id", "ticker", "close_price", "weight", "date", "update_time"}

  /** The store error the composition queries meet as written: the one the
      environment raises, or the missing column. */
  function QueryFaultAsWritten(f: Faults): (g: Faults)
    ensures g.query
    ensures g.priceWrite == f.priceWrite && g.indexWrite == f.indexWrite
  {
    f.(query := f.query || "market_cap" !in CompositionColumns)
  }

  /** Placeholders in the composition `INSERT` and values in each tuple the
      builder passes to it. */
  const CompositionPlaceholders := 4
  const CompositionTupleWidth := 5

  /** Placeholders in the change-log `INSERT` and values in each tuple the
      detector passes to it. */
  const ChangePlaceholders := 3
  const ChangeTupleWidth := 4

  /** `executemany` with tuples wider than the statement's placeholders:
      sqlite3 raises a ProgrammingError on the first tuple, the handler rolls
      back, and only an empty batch commits. */
  function InsertCompositionAsWritten(s: State, rows: seq<CompositionRow>, fault: bool): (w: Written)
    ensures rows != [] ==> w.state == s && w.status == RolledBack
  {
    if rows != [] && CompositionTupleWidth != CompositionPlaceholders then Written(s, RolledBack)
    else AppendComposition(s, rows, fault)
  }

  function InsertChangesAsWritten(s: State, rows: seq<ChangeRow>, fault: bool): (w: Written)
    ensures rows != [] ==> w.state == s && w.status == RolledBack
  {
    if rows != [] && ChangeTupleWidth != ChangePlaceholders then Written(s, RolledBack)
    else AppendChanges(s, rows, fault)
  }

  /** Counterexample: a one-row composition batch with no store error is
      lost as written, while the intended append records it. */
  lemma CompositionWriteLost(s: State, row: CompositionRow)
    ensures InsertCompositionAsWritten(s, [row], false).state.composition == s.composition
    ensures AppendComposition(s, [row], false).state.composition == s.composition + [row]
  {
  }

  /** Counterexample: a one-row change batch with no store error is lost as
      written, while the intended append records it. */
  lemma ChangeWriteLost(s: State, row: ChangeRow)
    ensures InsertChangesAsWritten(s, [row], false).state.changes == s.changes
    ensures AppendChanges(s, [row], false).state.changes == s.changes + [row]
  {
  }
}
